=== FILE: README.md ===
# PBM eligibility synthetic-data generator, modelled in Dafny

The generator writes four related tables for a pharmacy-benefit (PBM)
eligibility reconciliation study:

- a ledger of batch loads of the PBM vendor's eligibility file;
- the system-of-record eligibility table;
- the PBM's mirror of that table, with five kinds of mismatch and some
  data-quality noise injected on purpose;
- twenty-nine days' worth of pharmacy claims, from 28 days ago to today. Members whose latest PBM row is
  bad are rejected more often, and may get the PBM-specific reject reasons.

This project models the deterministic logic of that generator. Every random
draw is an explicit input: a chosen index, an integer from its range, or a
boolean that says whether a probability threshold passed. Each draw is
constrained by a `Valid…` predicate to the range its sampler produces.
Dates are day numbers counted from 1970-01-01. Timestamps are minutes
counted from 1970-01-01 00:00. The sentinels 9999-12-31 (`OpenEndDate`) and
1900-01-01 (`LegacyBadDate`) are named constants.

Modules, in dependency order:

| file | module | what it holds |
|---|---|---|
| `wrappers.dfy` | `Wrappers` | `Option`, `Result`, and the generator's error cases |
| `calendar.dfy` | `Calendar` | day and minute arithmetic, `daterange` |
| `catalog.dfy` | `Catalog` | regions, product lines, plan table, reject codes, `pick_plan`, the plan-to-PBM-plan lookup |
| `rows.dfy` | `Rows` | tables as sequences; "mutate the rows at these positions" |
| `array_split.dfy` | `Sections` | numpy's `array_split` |
| `file_loads.dfy` | `FileLoads` | `generate_file_loads`, the latest batch |
| `eligibility.dfy` | `Eligibility` | `generate_eligibility_current` |
| `pbm_mirror.dfy` | `PbmMirror` | the 1:1 mirror that starts `generate_pbm_loaded` |
| `defect_injection.dfy` | `DefectInjection` | the 10% sample, the five scenarios, the noise passes, the whole of `generate_pbm_loaded` |
| `latest.dfy` | `LatestRecord` | latest PBM row per member, and the bad-member set |
| `claims.dfy` | `RxClaims` | `generate_rx_claims` |

The model follows the code in two details:

- Eligibility rows do not carry the PBM plan id. The mirror derives it from
  `plan_id` through the plan table.
- The last internal update lies up to 25 days *and 23 hours* back, not
  within 25 days.

Every table-building operation fails in the model where the Python raises:

- an empty member list gives frames without a `member_id` column, so
  selecting that column raises a `KeyError`: for the scenario-5 members in
  `generate_pbm_loaded`, and for the member list in `generate_rx_claims`;
- an empty ledger, with members, fails on `sample(1)`.

These become `Failure` values of a `Result`.

## Model

| member | source | states |
|---|---|---|
| Calendar.DateOf | generator/generate_synthetic_data.py:185-188 | the calendar date of a timestamp is the day whose 24 hours contain it |
| Calendar.DateRange | generator/generate_synthetic_data.py:35-37 | `daterange(start, end)` lists end − start + 1 days, the k-th being start + k; nothing when end comes before start |
| Calendar.DateRangeMembership | generator/generate_synthetic_data.py:35-37 | a day is enumerated exactly when it lies between the two bounds, both included |
| Calendar.DateRangeStrictlyIncreasing | generator/generate_synthetic_data.py:35-37 | the days come in strictly increasing order, so none is visited twice |
| Catalog.Candidates | generator/generate_synthetic_data.py:40 | the candidates are exactly the plans whose id starts with the region code |
| Catalog.PickPlan | generator/generate_synthetic_data.py:39-41 | the pick is always a row of the plan table; it belongs to the region whenever any plan of the region exists, and otherwise falls back to the whole table |
| Catalog.EveryStateHasPlans | generator/generate_synthetic_data.py:17-26 | every region in the region list has at least one plan, so for generated members the fallback never fires |
| Catalog.PbmPlanOf | generator/generate_synthetic_data.py:101 | the PBM plan id is the one the plan table pairs with the plan id; it is PBM_UNKNOWN exactly when the plan id is not in the table |
| Catalog.LookupPbmPlan | generator/generate_synthetic_data.py:101 | a dictionary lookup over a table without duplicate keys returns the paired value or the default, and the default only for a missing key |
| FileLoads.LedgerBase | generator/generate_synthetic_data.py:44 | batch 0 loads at 02:00 on the day 28 days before now |
| FileLoads.FileVersionOf | generator/generate_synthetic_data.py:49 | version v(1 + i div 6).(i mod 6): the minor number is below 6 and the pair encodes i |
| FileLoads.FileVersionsIncrease | generator/generate_synthetic_data.py:49 | a later batch gets a strictly later version in (major, minor) order |
| FileLoads.GenerateFileLoads | generator/generate_synthetic_data.py:43-57 | batch i loads 36·i hours after the base, its id pairs its load date with i, its version encodes i, its record count lies in [1500, 4000], and its source is PBM_VENDOR_X |
| FileLoads.LoadTimesStrictlyIncrease | generator/generate_synthetic_data.py:46-49 | load times and versions strictly increase with the batch index, and no two batches share an id |
| FileLoads.LatestLoadIndex | generator/generate_synthetic_data.py:142 | the batch picked as latest has a load time no other batch exceeds |
| FileLoads.LatestLoadIsLast | generator/generate_synthetic_data.py:142 | in a generated ledger the latest batch is the last one |
| Eligibility.MemberRow | generator/generate_synthetic_data.py:63-89 | member i is M(100000 + i), with a region, product line and plan of that region from the catalogue; it becomes effective 30 to 90 days ago; it is ACTIVE exactly when the 72% draw passed and exactly when it ends 9999-12-31, and a TERMINATED member ends 10 to 70 days after it became effective; its last update is at most 25 days 23 hours old |
| Eligibility.GenerateEligibility | generator/generate_synthetic_data.py:59-90 | one row per member draw, and every row keeps the guarantees of a single member row |
| Eligibility.MemberIdsUnique | generator/generate_synthetic_data.py:63-64 | sequential allocation gives every row its own member id |
| Rows.MutateRows | generator/generate_synthetic_data.py:121-137 | a per-position loop leaves the length alone, mutates each listed row once and leaves every other row as it was, provided the positions have no repeats or the mutation is idempotent |
| PbmMirror.MirrorRow | generator/generate_synthetic_data.py:98-110 | a mirror row copies member, region, plan, product line, dates and status, maps the plan to its PBM plan id, carries the chosen batch and is created 1 to 240 minutes after that batch loaded |
| PbmMirror.Mirror | generator/generate_synthetic_data.py:92-111 | before injection the mirror has exactly one row per eligibility row, in the same order, each mirroring its source row and carried by its drawn batch |
| PbmMirror.MirrorOfGenerated | generator/generate_synthetic_data.py:92-111 | mirroring a generated eligibility table gives every row a member, keeps member ids unique, never yields PBM_UNKNOWN, and keeps ACTIVE exactly when the end is 9999-12-31 |
| Sections.SectionStartClosedForm | generator/generate_synthetic_data.py:118 | section j of an array_split starts after j·(len div k) elements plus one for each of the larger sections before it |
| Sections.ArraySplit | generator/generate_synthetic_data.py:118 | array_split(s, k) gives k sections that concatenate back to s; their sizes are len div k or one more, never increase, and the first len mod k are the larger ones |
| Sections.SectionElement | generator/generate_synthetic_data.py:118 | each section element is the element of s at the section's start plus its offset |
| Sections.SectionsCover | generator/generate_synthetic_data.py:118 | an element lies in some section exactly when it lies in s |
| Sections.SectionsDisjoint | generator/generate_synthetic_data.py:118 | sections of a sequence without repeats share no element |
| Sections.SectionDistinct | generator/generate_synthetic_data.py:118 | a section of a sequence without repeats has none either, and takes its elements from the sequence |
| DefectInjection.PrematureTermination | generator/generate_synthetic_data.py:120-123 | scenario 1: each row of its group becomes TERMINATED, ending 20 days after it became effective, with every other field kept; rows outside the group are unchanged |
| DefectInjection.PlanMappingCorruption | generator/generate_synthetic_data.py:125-127 | scenario 2: each row of its group gets PBM_WRONG_PLAN, with every other field kept; rows outside the group are unchanged |
| DefectInjection.DateDrift | generator/generate_synthetic_data.py:129-132 | scenario 3: each ended row of its group ends exactly one day later, with every other field kept; an open-ended row and the rows outside the group are unchanged |
| DefectInjection.DelayedLoad | generator/generate_synthetic_data.py:134-137 | scenario 4: each row of its group is loaded and created exactly six days later, with every other field kept; rows outside the group are unchanged |
| DefectInjection.FirstRowFrom | generator/generate_synthetic_data.py:144 | the search returns a position at or after its start, inside the table or one past it, and a found position holds the member |
| DefectInjection.FirstRowFromIsFirst | generator/generate_synthetic_data.py:144 | no row of the member lies between the search start and the position found, and the search finds a row whenever one exists |
| DefectInjection.FirstRowFromExtended | generator/generate_synthetic_data.py:144 | appending rows does not move a member's first row at or after the search start, when that row exists |
| DefectInjection.FirstRowOfIsFirst | generator/generate_synthetic_data.py:144 | `pbm[pbm.member_id == m].iloc[0]` finds the earliest row of m whenever m has a row |
| DefectInjection.FirstRowOfExtended | generator/generate_synthetic_data.py:144 | appending duplicates never moves a member's first row |
| DefectInjection.FirstRowOfUnique | generator/generate_synthetic_data.py:144 | with unique member ids, a member's first row is its only row |
| DefectInjection.DuplicateBelongsTo | generator/generate_synthetic_data.py:144-148 | a duplicate of m's first row belongs to m and carries the latest batch's load time |
| DefectInjection.DuplicateRowIsDuplicate | generator/generate_synthetic_data.py:144-150 | a scenario-5 row copies its base row except for the latest batch's id, version and load time, creation 10 minutes after that load, TERMINATED status, and an end 5 days after the effective date |
| DefectInjection.DuplicateCopiesOwnRow | generator/generate_synthetic_data.py:144-150 | with unique member ids, the duplicate for the member at a position copies the row at that position |
| DefectInjection.AppendDuplicates | generator/generate_synthetic_data.py:143-151 | appending in order leaves the existing rows untouched, grows the table by one row per listed member, and makes the k-th new row a duplicate of the first row of the k-th member in the table before the appends |
| DefectInjection.DuplicateOverride | generator/generate_synthetic_data.py:139-151 | scenario 5 only appends: exactly min(300, group size) rows, for the group's members in order, each belonging to its member and a duplicate of its member's first row attributed to the latest batch; all prior rows stay unchanged |
| DefectInjection.ScenarioGroupSizes | generator/generate_synthetic_data.py:116-118 | the five groups concatenate to the selection, and their sizes differ by at most one with the larger groups first |
| DefectInjection.GroupWellFormed | generator/generate_synthetic_data.py:116-118 | each group holds distinct, in-range row positions, all from the selection |
| DefectInjection.GroupOf | generator/generate_synthetic_data.py:116-118 | every selected position lies in some group |
| DefectInjection.GroupsDisjoint | generator/generate_synthetic_data.py:116-118 | no position lies in two groups |
| DefectInjection.ScenarioGroupsPartition | generator/generate_synthetic_data.py:116-118 | a selection of distinct in-range positions splits into five pairwise-disjoint groups of distinct in-range positions |
| DefectInjection.UnselectedOutsideGroups | generator/generate_synthetic_data.py:116-118 | a position outside the selection is touched by none of scenarios 1 to 4 |
| DefectInjection.MutateGroups | generator/generate_synthetic_data.py:120-137 | after scenarios 1 to 4, each grouped row shows exactly its own group's mutation; rows in no group are unchanged; no member id changes |
| DefectInjection.GroupDuplicatesCopyOwnRows | generator/generate_synthetic_data.py:139-151 | with unique member ids, each scenario-5 duplicate copies the untouched row of its own group position, even though the copy is taken after scenarios 1 to 4 |
| DefectInjection.AppendScenarioDuplicates | generator/generate_synthetic_data.py:139-151 | scenario 5 after scenarios 1 to 4: the mutated table is kept as a prefix, and each appended row is its member's duplicate, copying the member's own row when member ids are unique |
| DefectInjection.InjectScenarios | generator/generate_synthetic_data.py:115-151 | all five scenarios: per-group effects on the original rows; rows in no mutating group are unchanged; member ids kept; min(300, group-5 size) duplicates appended, each with a member, copied from the mutated table |
| DefectInjection.NullMemberIds | generator/generate_synthetic_data.py:154-156 | the listed rows lose their member id, even a row listed twice, and nothing else changes |
| DefectInjection.LegacyEndDates | generator/generate_synthetic_data.py:157-159 | the listed rows end 1900-01-01 and nothing else changes |
| DefectInjection.AddNoise | generator/generate_synthetic_data.py:153-159 | a member id is missing exactly on the nulled rows, and kept on the others; legacy rows end 1900-01-01, and the others keep their end; no other field of any row changes |
| DefectInjection.AppendedRowsOfMembers | generator/generate_synthetic_data.py:140-151 | over a mirror of the members, each appended row belongs to the member at its group-5 position and duplicates that member's first row |
| DefectInjection.InjectIntoMirror | generator/generate_synthetic_data.py:115-151 | on a mirror of the members, every mirror row keeps its member and shows its own group's mutation, or is unchanged in no group; appended rows belong to their group-5 members and duplicate their first rows, copying the mirror rows at those positions when member ids are unique |
| DefectInjection.InjectedMirror | generator/generate_synthetic_data.py:92-151 | the injected mirror has n + min(300, (n div 10) div 5) rows, each with a member; mirror row j keeps member j and shows, against the plain mirror row, the mutation of the group that array_split puts j in, or none; appended row k belongs to the k-th group-5 member and duplicates its first row; with unique member ids it is that member's plain mirror row turned into a scenario-5 duplicate: the latest batch's stamp, TERMINATED, ending 5 days after it became effective |
| DefectInjection.ScenarioAppliedEnd | generator/generate_synthetic_data.py:120-137 | the end date a scenario leaves on a row: effective plus 20 days for scenario 1, one day past a dated end for scenario 3, otherwise the row's own |
| DefectInjection.NoiseKeepsScenarios | generator/generate_synthetic_data.py:153-159 | the noise pass keeps every mirror row's scenario mutation except the member id and end date it may overwrite; a row it does not touch shows the full mutation; a non-legacy row ends on its scenario end date |
| DefectInjection.NoiseKeepsStamps | generator/generate_synthetic_data.py:153-159 | every appended row keeps the latest batch's stamp and, unless nulled, its member |
| DefectInjection.NoiseKeepsMirrorCopies | generator/generate_synthetic_data.py:153-159 | with unique member ids, every appended row stays its member's re-stamped mirror row up to member id and end date, and is exactly that row when no noise touches it |
| DefectInjection.InjectAndAddNoise | generator/generate_synthetic_data.py:115-159 | scenarios then noise on a mirror of the members: member ids missing exactly on nulled rows; every mirror row keeps its group's mutation except the member id and end date the noise may overwrite, and shows it whole when untouched; a non-legacy mirror row ends on its scenario end date; appended rows stamped by the latest batch and, unless nulled, owned by their group-5 members; with unique ids each appended row is its member's re-stamped mirror row up to member id and end date |
| DefectInjection.InjectedNoisyMirror | generator/generate_synthetic_data.py:113-159 | the success path for the sample's five groups: the properties of the whole table, including the scenario mutation kept on noise-touched rows, stated against any table that mirrors the members |
| DefectInjection.GeneratePbmLoaded | generator/generate_synthetic_data.py:92-161 | it fails without members (the KeyError on the empty frame) or without batches, and succeeds otherwise; the n mirror rows come first, then min(300, (n div 10) div 5) more; a member id is missing exactly on nulled rows; legacy rows end 1900-01-01; every mirror row shows its group's mutation against the plain mirror row (or is that row when unselected) in every field but the member id and end date the noise may overwrite, and in those too when untouched; a non-legacy mirror row ends on its scenario end date; each appended row carries the latest batch's stamp (batch, version, load time, creation 10 minutes later, TERMINATED) and, unless nulled, its group-5 member; with unique member ids every appended row is that member's plain mirror row re-stamped, up to member id and end date, and exactly when untouched |
| LatestRecord.MembersOf | generator/generate_synthetic_data.py:168-169 | the non-null member ids that occur in the table |
| LatestRecord.ResolveLatest | generator/generate_synthetic_data.py:168-169 | every non-null member, and no other key, maps to one of its rows with the greatest creation time |
| LatestRecord.BadSet | generator/generate_synthetic_data.py:168-173 | for a resolution of the latest rows: only members of the table are bad; a bad member is bad on some latest row; a member left out is good on some latest row |
| LatestRecord.BadSetIndependentOfTies | generator/generate_synthetic_data.py:168-173 | when all of a member's latest rows agree on badness, the tie-break of the sort cannot change the bad set |
| LatestRecord.ResolveBadSet | generator/generate_synthetic_data.py:168-173 | only non-null members are bad; a bad member has a bad latest row; a member left out has a good latest row; without ties that matter, a member is bad exactly when its latest rows are |
| LatestRecord.BadMembersHaveRows | generator/generate_synthetic_data.py:168-173 | every bad member has a bad row in the table |
| RxClaims.RejectOf | generator/generate_synthetic_data.py:190-200 | a claim rejects exactly when the base draw or, for a bad member, the override passed; for a member not bad exactly when the base draw passed, and only with reason 70 or 75; a reason 26 or R3 implies a bad member; 26 comes first, then R3; a rejected bad member whose 65% and 50% draws both failed gets the generic reason drawn, like any other member |
| RxClaims.FirstEligRow | generator/generate_synthetic_data.py:181 | `.iloc[0]` finds the earliest eligibility row with the chosen member id |
| RxClaims.MakeClaim | generator/generate_synthetic_data.py:180-231 | a claim is unpaid exactly when it has a reject reason, has a resolution status exactly when unpaid, and a resolution time exactly when RESOLVED, which falls after creation by at most 10 days 12 hours; it copies the member's region, plan and product line; it is created on the fill day between 08:00 and 20:59; it is OPEN exactly when unpaid and the 85% draw failed; a resolved claim is resolved exactly the drawn delay days and 1–12 hours after creation |
| RxClaims.EligMembers | generator/generate_synthetic_data.py:175 | the member list holds exactly the eligibility table's member ids |
| RxClaims.DayClaims | generator/generate_synthetic_data.py:179-231 | one claim per draw, in draw order, for the drawn member: filled that day at the drawn hour and minute, with the region, plan and product line of the member's first eligibility row, the reject decision and reason the draw gives for the member's badness; it is OPEN exactly when rejected and the 85% draw failed, and when RESOLVED it is resolved exactly the drawn delay days and hours after creation |
| RxClaims.TotalClaimsMonotone | generator/generate_synthetic_data.py:177-179 | the claims of the first a days never outnumber those of the first b days when a ≤ b |
| RxClaims.ClaimIndex | generator/generate_synthetic_data.py:177-231 | the i-th claim of day k comes after every claim of the earlier days and before every claim of the later ones |
| RxClaims.ClaimsOfNextDay | generator/generate_synthetic_data.py:177-231 | appending one day's claims to those of the days before it keeps every earlier claim at its place and puts the new ones right after them |
| RxClaims.GenerateClaims | generator/generate_synthetic_data.py:163-233 | it fails exactly when there are no members; otherwise there is one claim per draw, each well formed and in the 29-day window, and the i-th claim of day k sits after the claims of the earlier days, is filled on 28 days ago plus k, names the drawn member and has the outcome that draw gives, including its resolution time |
| RxClaims.NullClaimMembers | generator/generate_synthetic_data.py:235-237 | a claim's member id is missing exactly when its row was drawn, and nothing else about any claim changes |
| RxClaims.GenerateRxClaims | generator/generate_synthetic_data.py:163-239 | it also returns the bad set it used, which has the latest-row properties of ResolveBadSet; it fails exactly when there are no members; otherwise every claim keeps the outcome invariant and its window; a member id is missing exactly on the eight nulled rows and otherwise names an eligibility member; reason 26 or R3 goes only to a member with a bad latest PBM row; the i-th claim of day k is filled on 28 days ago plus k with the outcome its draw gives, and names the drawn member unless nulled, including its resolution time |

## Left out

- Faker: the date of birth, the unique claim ids, and the fake NDC and pharmacy strings are not modelled.
- The random generators and their seeding. Draws are inputs, so reproducibility and the probabilities (72%, 12%, 55%, 65%, 50%, 85%) are not modelled, only which way each draw went.
- The order in which draws are consumed. Draws a branch does not reach are ignored, which does not change what the generator does.
- `np.random.normal` followed by `clip` and `int` is floating point. The resolution delay is taken as a given integer in [0, 10].
- `datetime.now()` and `date.today()` become the parameters `now` and `today`.
- The `strftime` rendering of `batch_id` and `file_version`. These are kept as the (load date, index) and (major, minor) pairs they are rendered from.
- `int(n * 0.10)` is modelled as `n div 10`. For very large n, floating-point rounding of the product could differ; the selection is an input constrained to that size.
- pandas and numpy mechanics (`DataFrame`, `loc`, `concat`, `sample`, `iterrows`) are not modelled. Tables are sequences of records, and positions are row indexes, which `ignore_index=True` keeps equal.
- CSV output, directory creation, `main` and printing are not modelled.
- Eligibility.SupportedToday: the model requires `today + 40` to fall before 9999-12-31, and promises nothing for later days. Past 9999-12-31 Python's dates overflow. On the excluded days that do not overflow, a TERMINATED member can end exactly on 9999-12-31 (for example today = 9999-11-21, effective 60 days back, 70 days of coverage). That breaks MemberRow's "ACTIVE exactly when the end is 9999-12-31", and scenario 3 would skip the row.
- LatestRecord.ResolveLatest: `sort_values` is not stable, so its tie-break is not specified. The model keeps the later row in table order, and its contract promises only some row with the greatest creation time.
- FileLoads.LatestLoadIndex: the same applies to `sort_values(...).tail(1)` on the ledger; only "a batch with the greatest load time" is promised.
- DefectInjection.InjectedMirror: the contract does not claim that a scenario-5 duplicate becomes its member's latest row. The original row can carry a later creation time, up to 240 minutes after a load that may be later than the duplicate's.
- RxClaims.GenerateRxClaims: the statistical claim that bad members reject more often is a statement about probabilities and is not modelled. The contract states only the per-draw rule.

=== FILE: array_split.dfy ===
/**
 numpy's `array_split(s, k)`: `k` consecutive sections whose sizes differ by
 at most one, the `|s| % k` larger sections first.
 */
module Sections {
  import opened Rows

  /** Size of section `j`. */
  function SectionSize(len: nat, k: nat, j: nat): nat
    requires k > 0
  {
    len / k + (if j < len % k then 1 else 0)
  }

  /** Position in `s` where section `j` starts: the sizes of the sections before it, summed. */
  function SectionStart(len: nat, k: nat, j: nat): nat
    requires k > 0
    decreases j, 0
  {
    if j == 0 then 0 else SectionEnd(len, k, j - 1)
  }

  /** Position in `s` just past section `j`. */
  function SectionEnd(len: nat, k: nat, j: nat): nat
    requires k > 0
    decreases j, 1
  {
    SectionStart(len, k, j) + SectionSize(len, k, j)
  }

  /** The closed form of the running sum. */
  lemma {:induction false} SectionStartClosedForm(len: nat, k: nat, j: nat)
    requires k > 0
    ensures SectionStart(len, k, j) == j * (len / k) + (if j < len % k then j else len % k)
  {
    if j > 0 {
      SectionStartClosedForm(len, k, j - 1);
      var q := len / k;
      assert j * q == (j - 1) * q + q;
    }
  }

  /** The sections use up `s` exactly. */
  lemma SectionStartLast(len: nat, k: nat)
    requires k > 0
    ensures SectionStart(len, k, k) == len
  {
    SectionStartClosedForm(len, k, k);
    assert k * (len / k) + len % k == len;
  }

  lemma {:induction false} SectionStartMonotone(len: nat, k: nat, a: nat, b: nat)
    requires k > 0 && a <= b
    ensures SectionStart(len, k, a) <= SectionStart(len, k, b)
  {
    if a < b {
      SectionStartMonotone(len, k, a, b - 1);
    }
  }

  /** Every section ends inside `s`. */
  lemma SectionInside(len: nat, k: nat, j: nat)
    requires 0 <= j < k
    ensures SectionEnd(len, k, j) <= len
  {
    SectionStartLast(len, k);
    SectionStartMonotone(len, k, j + 1, k);
  }

  /** The concatenation of a list of sections. */
  function Concat<T>(parts: seq<seq<T>>): seq<T> {
    if |parts| == 0 then [] else Concat(parts[..|parts| - 1]) + parts[|parts| - 1]
  }

  function Section<T>(s: seq<T>, k: nat, j: nat): (part: seq<T>)
    requires 0 <= j < k
  {
    SectionInside(|s|, k, j);
    s[SectionStart(|s|, k, j)..SectionEnd(|s|, k, j)]
  }

  /** The first `m` sections concatenate to the prefix of `s` they cover. */
  lemma {:induction false} ConcatPrefix<T>(s: seq<T>, k: nat, m: nat)
    requires 0 < k && m <= k
    ensures SectionStart(|s|, k, m) <= |s|
    ensures Concat(seq(m, j requires 0 <= j < m => Section(s, k, j))) == s[..SectionStart(|s|, k, m)]
  {
    SectionStartLast(|s|, k);
    SectionStartMonotone(|s|, k, m, k);
    if m > 0 {
      ConcatPrefix(s, k, m - 1);
      var parts := seq(m, j requires 0 <= j < m => Section(s, k, j));
      assert parts[..m - 1] == seq(m - 1, j requires 0 <= j < m - 1 => Section(s, k, j));
      var a, b := SectionStart(|s|, k, m - 1), SectionStart(|s|, k, m);
      assert s[..a] + s[a..b] == s[..b];
    }
  }

  /**
   The sections of `array_split(s, k)`: concatenated in order they give back
   `s`; their sizes are `|s| / k` or one more; larger sections come first.
   */
  function ArraySplit<T>(s: seq<T>, k: nat): (parts: seq<seq<T>>)
    requires k > 0
    ensures |parts| == k
    ensures Concat(parts) == s
    ensures forall j :: 0 <= j < k ==> |s| / k <= |parts[j]| <= |s| / k + 1
    ensures forall i, j :: 0 <= i < j < k ==> |parts[i]| >= |parts[j]|
    ensures forall j :: 0 <= j < k ==> |parts[j]| == SectionSize(|s|, k, j)
  {
    var parts := seq(k, j requires 0 <= j < k => Section(s, k, j));
    ConcatPrefix(s, k, k);
    SectionStartLast(|s|, k);
    assert s[..|s|] == s;
    assert forall j :: 0 <= j < k ==> |parts[j]| == SectionSize(|s|, k, j) by {
      forall j | 0 <= j < k ensures |parts[j]| == SectionSize(|s|, k, j) {
        SectionInside(|s|, k, j);
      }
    }
    parts
  }

  /** Every element of section `j` sits in `s` at the section's start plus its offset. */
  lemma SectionElement<T>(s: seq<T>, k: nat, j: nat, m: nat)
    requires 0 <= j < k && m < |ArraySplit(s, k)[j]|
    ensures SectionStart(|s|, k, j) + m < SectionEnd(|s|, k, j) <= |s|
    ensures ArraySplit(s, k)[j][m] == s[SectionStart(|s|, k, j) + m]
  {
    SectionInside(|s|, k, j);
  }

  /** The section that holds position `p`. */
  lemma FindSection(len: nat, k: nat, p: nat) returns (j: nat)
    requires k > 0 && p < len
    ensures j < k && SectionStart(len, k, j) <= p < SectionEnd(len, k, j)
  {
    j := 0;
    SectionStartLast(len, k);
    while SectionEnd(len, k, j) <= p
      invariant j < k && SectionStart(len, k, j) <= p
      decreases k - j
    {
      SectionStartMonotone(len, k, j + 1, k);
      j := j + 1;
    }
  }

  /** An element lies in some section exactly when it lies in `s`. */
  lemma SectionsCover<T>(s: seq<T>, k: nat, x: T)
    requires k > 0
    ensures x in s <==> exists j :: 0 <= j < k && x in ArraySplit(s, k)[j]
  {
    var parts := ArraySplit(s, k);
    if x in s {
      var p :| 0 <= p < |s| && s[p] == x;
      var j := FindSection(|s|, k, p);
      SectionInside(|s|, k, j);
      assert parts[j][p - SectionStart(|s|, k, j)] == x;
    }
    forall j | 0 <= j < k && x in parts[j] ensures x in s {
      var m :| 0 <= m < |parts[j]| && parts[j][m] == x;
      SectionElement(s, k, j, m);
    }
  }

  /** Sections of a sample without repeats share no element. */
  lemma SectionsDisjoint<T>(s: seq<T>, k: nat, a: nat, b: nat)
    requires Distinct(s)
    requires a < b < k
    ensures forall x :: x in ArraySplit(s, k)[a] ==> x !in ArraySplit(s, k)[b]
  {
    var parts := ArraySplit(s, k);
    forall x | x in parts[a] ensures x !in parts[b] {
      var ma :| 0 <= ma < |parts[a]| && parts[a][ma] == x;
      SectionElement(s, k, a, ma);
      if x in parts[b] {
        var mb :| 0 <= mb < |parts[b]| && parts[b][mb] == x;
        SectionElement(s, k, b, mb);
        SectionStartMonotone(|s|, k, a + 1, b);
        assert false;
      }
    }
  }

  /** A section of a sample without repeats has no repeats, and all its elements come from the sample. */
  lemma SectionDistinct<T>(s: seq<T>, k: nat, j: nat)
    requires Distinct(s)
    requires j < k
    ensures Distinct(ArraySplit(s, k)[j])
    ensures forall x :: x in ArraySplit(s, k)[j] ==> x in s
  {
    var part := ArraySplit(s, k)[j];
    forall a, b | 0 <= a < b < |part| ensures part[a] != part[b] {
      SectionElement(s, k, j, a);
      SectionElement(s, k, j, b);
    }
    forall x | x in part ensures x in s {
      SectionsCover(s, k, x);
    }
  }
}

=== FILE: calendar.dfy ===
/**
 Dates and times as integers.

 A date is a day number counted from 1970-01-01 (day 0); a timestamp is a
 number of minutes counted from 1970-01-01 00:00.  Dafny's `/` and `%` on
 `int` floor for a positive divisor, which is what truncating a datetime to
 its calendar date does.
 */
module Calendar {

  const MinutesPerHour: int := 60
  const MinutesPerDay: int := 1440

  /** 9999-12-31: the "open-ended" end date of an active coverage span. */
  const OpenEndDate: int := 2932896

  /** 1900-01-01: the legacy bad end date injected as data-quality noise. */
  const LegacyBadDate: int := -25567

  /** The calendar date of a timestamp. */
  function DateOf(ts: int): (d: int)
    ensures d * MinutesPerDay <= ts < (d + 1) * MinutesPerDay
  {
    ts / MinutesPerDay
  }

  /** Midnight at the start of day `d`. */
  function StartOfDay(d: int): (ts: int)
    ensures DateOf(ts) == d
  {
    d * MinutesPerDay
  }

  /**
   Every day from `start` to `end`, both included, in increasing order; empty
   when `end` comes before `start`.
   */
  function DateRange(start: int, end: int): (r: seq<int>)
    ensures |r| == if end < start then 0 else end - start + 1
    ensures forall k :: 0 <= k < |r| ==> r[k] == start + k
    decreases end - start
  {
    if end < start then [] else [start] + DateRange(start + 1, end)
  }

  /** A day appears in the range exactly when it lies between its bounds. */
  lemma DateRangeMembership(start: int, end: int, d: int)
    ensures d in DateRange(start, end) <==> start <= d <= end
  {
    var r := DateRange(start, end);
    if start <= d <= end {
      assert r[d - start] == d;
    }
  }

  /** The range lists its days strictly increasing, so no day twice. */
  lemma DateRangeStrictlyIncreasing(start: int, end: int)
    ensures forall i, j :: 0 <= i < j < |DateRange(start, end)| ==>
      DateRange(start, end)[i] < DateRange(start, end)[j]
  {
  }
}

=== FILE: catalog.dfy ===
/**
 The static reference catalogue: region codes, product lines, the plan table
 (internal plan id paired with the PBM's plan id) and the reject codes, plus
 the two catalogue lookups the generators make.
 */
module Catalog {

  /** Coverage status of an eligibility or PBM-mirror record. */
  datatype Status = Active | Terminated

  /** One row of the plan table: internal plan id and the PBM's plan id. */
  datatype Plan = Plan(planId: string, pbmPlanId: string)

  /** One reject code with its human-readable reason. */
  datatype Reject = Reject(code: string, reason: string)

  const States: seq<string> := ["CA", "TX", "FL", "WA", "OH"]

  const ProductLines: seq<string> := ["Medicaid", "Marketplace", "Medicare"]

  const Plans: seq<Plan> := [
    Plan("CA_MCD_A", "PBM_CA_01"),
    Plan("CA_MCD_B", "PBM_CA_02"),
    Plan("TX_MCD_A", "PBM_TX_01"),
    Plan("FL_MCD_A", "PBM_FL_01"),
    Plan("WA_MCD_A", "PBM_WA_01"),
    Plan("OH_MCD_A", "PBM_OH_01")
  ]

  const Rejects: seq<Reject> := [
    Reject("70", "Product/Service Not Covered"),
    Reject("75", "Prior Authorization Required"),
    Reject("26", "Coverage Terminated"),
    Reject("R3", "Member Not Found in PBM")
  ]

  /** The reasons any member's rejected claim may get: all but the last two. */
  const GenericRejects: seq<Reject> := Rejects[..2]

  const CoverageTerminated: Reject := Rejects[2]

  const MemberNotFound: Reject := Rejects[3]

  /** PBM plan id of a plan id the plan table does not know. */
  const UnknownPbmPlan: string := "PBM_UNKNOWN"

  /** PBM plan id written by the plan-mapping corruption scenario. */
  const WrongPbmPlan: string := "PBM_WRONG_PLAN"

  predicate StartsWith(s: string, prefix: string) {
    prefix <= s
  }

  /** The plans whose id starts with the given region code, in table order. */
  function Candidates(state: string): (cs: seq<Plan>)
    ensures forall p :: p in cs <==> p in Plans && StartsWith(p.planId, state)
  {
    PlansStartingWith(Plans, state)
  }

  function PlansStartingWith(ps: seq<Plan>, state: string): (cs: seq<Plan>)
    ensures forall p :: p in cs <==> p in ps && StartsWith(p.planId, state)
    ensures |cs| <= |ps|
  {
    if |ps| == 0 then []
    else if StartsWith(ps[0].planId, state) then [ps[0]] + PlansStartingWith(ps[1..], state)
    else PlansStartingWith(ps[1..], state)
  }

  /**
   The list a plan is drawn from for a region: its own plans, or the whole
   table when the region has none.
   */
  function PlanPool(state: string): seq<Plan> {
    var cs := Candidates(state);
    if |cs| > 0 then cs else Plans
  }

  /**
   Picks a plan for a region; `k` is the index drawn uniformly from the pool.
   The pick always comes from the plan table, and it belongs to the region
   whenever the region has any plan at all.
   */
  function PickPlan(state: string, k: nat): (p: Plan)
    requires k < |PlanPool(state)|
    ensures p in Plans
    ensures (exists q :: q in Plans && StartsWith(q.planId, state)) ==> StartsWith(p.planId, state)
  {
    var cs := Candidates(state);
    if |cs| > 0 then cs[k]
    else
      Plans[k]
  }

  /** Every region of the catalogue has at least one plan, so the fallback never fires for them. */
  lemma EveryStateHasPlans(state: string)
    requires state in States
    ensures |Candidates(state)| > 0
  {
    var i: nat;
    if state == "CA" { i := 0; }
    else if state == "TX" { i := 2; }
    else if state == "FL" { i := 3; }
    else if state == "WA" { i := 4; }
    else { i := 5; }
    assert StartsWith(Plans[i].planId, state);
    assert Plans[i] in Candidates(state);
  }

  /** No two rows of the plan table share a plan id. */
  predicate UniquePlanIds(ps: seq<Plan>) {
    forall i, j :: 0 <= i < j < |ps| ==> ps[i].planId != ps[j].planId
  }

  /**
   The PBM plan id of a plan id: the plan table read as a dictionary, with
   `UnknownPbmPlan` for an id it does not contain.
   */
  function PbmPlanOf(planId: string): (pbm: string)
    ensures (exists p :: p in Plans && p.planId == planId) <==> pbm != UnknownPbmPlan
    ensures forall p :: p in Plans && p.planId == planId ==> pbm == p.pbmPlanId
  {
    assert UniquePlanIds(Plans);
    assert forall p :: p in Plans ==> p.pbmPlanId != UnknownPbmPlan;
    LookupPbmPlan(Plans, planId)
  }

  function LookupPbmPlan(ps: seq<Plan>, planId: string): (pbm: string)
    requires UniquePlanIds(ps)
    ensures pbm == UnknownPbmPlan || (exists p :: p in ps && p.planId == planId && pbm == p.pbmPlanId)
    ensures forall p :: p in ps && p.planId == planId ==> pbm == p.pbmPlanId
    ensures (forall p :: p in ps ==> p.pbmPlanId != UnknownPbmPlan) ==>
      ((exists p :: p in ps && p.planId == planId) <==> pbm != UnknownPbmPlan)
  {
    if |ps| == 0 then UnknownPbmPlan
    else if ps[|ps| - 1].planId == planId then ps[|ps| - 1].pbmPlanId
    else
      assert UniquePlanIds(ps[..|ps| - 1]);
      assert forall p :: p in ps ==> p in ps[..|ps| - 1] || p == ps[|ps| - 1];
      LookupPbmPlan(ps[..|ps| - 1], planId)
  }
}

=== FILE: claims.dfy ===
/**
 Pharmacy claims over the last 29 days.  Each claim picks a member of the
 eligibility table, is filled on its day between 08:00 and 20:59, and is paid
 or rejected; members whose latest PBM row is bad are rejected more often and
 may get the PBM-specific reasons.  A rejected claim carries a resolution
 status, and a resolved one a resolution time.  Finally a few member ids are
 nulled as data-quality noise.
 */
module RxClaims {
  import opened Wrappers
  import opened Calendar
  import opened Catalog
  import opened Rows
  import opened Eligibility
  import opened PbmMirror
  import opened LatestRecord

  /** The window runs from 28 days before today up to today, both included. */
  const WindowDays: int := 28
  const MinDailyClaims: nat := 350
  const MaxDailyClaims: nat := 650
  const FirstFillHour: int := 8
  const LastFillHour: int := 20
  const MaxResolveDays: int := 10
  const MinResolveHours: int := 1
  const MaxResolveHours: int := 12
  /** How many claims get their member id nulled at the end. */
  const NulledClaims: nat := 8

  datatype Resolution = Resolved | Open

  /**
   The draws one claim consumes: the member (an index into the member list),
   the fill hour and minute, whether the 12% base reject draw passed, whether
   the bad-member override (55%), coverage-terminated (65%) and not-found
   (50%) draws passed, the generic reason, the resolution delay in days (the
   clipped normal draw, already an integer) and hours, and whether the 85%
   resolved draw passed.  Draws a claim does not reach are ignored.
   */
  datatype ClaimDraw = ClaimDraw(
    memberIdx: nat,
    hour: int,
    minute: int,
    baseReject: bool,
    overrideReject: bool,
    coverageTerminated: bool,
    notFound: bool,
    genericIdx: nat,
    resolveDays: int,
    resolveHours: int,
    resolves: bool)

  /** Each draw other than the member in the range its sampler produces. */
  predicate ValidClaimDraw(d: ClaimDraw) {
    && FirstFillHour <= d.hour <= LastFillHour
    && 0 <= d.minute < MinutesPerHour
    && d.genericIdx < |GenericRejects|
    && 0 <= d.resolveDays <= MaxResolveDays
    && MinResolveHours <= d.resolveHours <= MaxResolveHours
  }

  /** One row of the claims table; the claim id, NDC and pharmacy id are not modelled. */
  datatype Claim = Claim(
    memberId: Option<nat>,
    state: string,
    planId: string,
    productLine: string,
    fillDate: int,
    createdTs: int,
    paid: bool,
    reject: Option<Reject>,
    resolution: Option<Resolution>,
    resolvedTs: Option<int>)

  /**
   The outcome invariant of a claim: unpaid exactly when it has a reject
   reason; a resolution status exactly when unpaid; a resolution time
   exactly when RESOLVED, and then after the claim was created.
   */
  predicate OutcomeConsistent(c: Claim) {
    && (!c.paid <==> c.reject.Some?)
    && (c.resolution.Some? <==> !c.paid)
    && (c.resolvedTs.Some? <==> c.resolution == Some(Resolved))
    && (c.resolvedTs.Some? ==> c.createdTs < c.resolvedTs.value)
  }

  /**
   The reject decision and reason of one claim.  A claim rejects when the
   base draw passed or, for a bad member, the override passed.  A bad
   member's rejection is "26" when the coverage-terminated draw passed,
   else "R3" when the not-found draw passed; every other rejection gets one
   of the two generic reasons.
   */
  function RejectOf(bad: bool, d: ClaimDraw): (r: Option<Reject>)
    requires d.genericIdx < |GenericRejects|
    ensures r.Some? <==> d.baseReject || (bad && d.overrideReject)
    ensures !bad ==> (r.Some? <==> d.baseReject)
    ensures r.Some? && !bad ==> r.value in GenericRejects
    ensures r.Some? && r.value !in GenericRejects ==> bad
    ensures r.Some? && bad && d.coverageTerminated ==> r.value == CoverageTerminated
    ensures r.Some? && bad && !d.coverageTerminated && d.notFound ==> r.value == MemberNotFound
    ensures r.Some? && (!bad || (!d.coverageTerminated && !d.notFound)) ==>
      r.value in GenericRejects && r.value == GenericRejects[d.genericIdx]
  {
    if !(d.baseReject || (bad && d.overrideReject)) then None
    else if bad && d.coverageTerminated then Some(CoverageTerminated)
    else if bad && d.notFound then Some(MemberNotFound)
    else Some(GenericRejects[d.genericIdx])
  }

  /** The position of the first eligibility row with the same member id as row `i` (`.iloc[0]`). */
  function FirstEligRow(elig: seq<EligRecord>, i: nat): (k: nat)
    requires i < |elig|
    ensures k <= i
    ensures elig[k].memberId == elig[i].memberId
    ensures forall j :: 0 <= j < k ==> elig[j].memberId != elig[i].memberId
  {
    FirstEligRowFrom(elig, elig[i].memberId, 0, i)
  }

  function FirstEligRowFrom(elig: seq<EligRecord>, m: nat, from: nat, i: nat): (k: nat)
    requires from <= i < |elig| && elig[i].memberId == m
    requires forall j :: 0 <= j < from ==> elig[j].memberId != m
    ensures from <= k <= i
    ensures elig[k].memberId == m
    ensures forall j :: 0 <= j < k ==> elig[j].memberId != m
    decreases i - from
  {
    if elig[from].memberId == m then from else FirstEligRowFrom(elig, m, from + 1, i)
  }

  /**
   One claim filled on `day` for the member of eligibility row `e`, whose
   membership in the bad set is `bad`.
   */
  function MakeClaim(day: int, e: EligRecord, bad: bool, d: ClaimDraw): (c: Claim)
    requires ValidClaimDraw(d)
    ensures OutcomeConsistent(c)
    ensures c.memberId == Some(e.memberId)
    ensures c.state == e.state && c.planId == e.planId && c.productLine == e.productLine
    ensures c.fillDate == day && DateOf(c.createdTs) == day
    ensures FirstFillHour * MinutesPerHour <= c.createdTs - StartOfDay(day) < (LastFillHour + 1) * MinutesPerHour
    ensures c.reject == RejectOf(bad, d)
    ensures c.resolution == Some(Open) <==> !c.paid && !d.resolves
    ensures c.resolvedTs.Some? ==> c.resolvedTs.value - c.createdTs <= MaxResolveDays * MinutesPerDay + MaxResolveHours * MinutesPerHour
    ensures c.resolvedTs.Some? ==>
      c.resolvedTs.value == c.createdTs + d.resolveDays * MinutesPerDay + d.resolveHours * MinutesPerHour
  {
    var created := StartOfDay(day) + d.hour * MinutesPerHour + d.minute;
    var reject := RejectOf(bad, d);
    if reject.None? then
      Claim(Some(e.memberId), e.state, e.planId, e.productLine, day, created, true, None, None, None)
    else if d.resolves then
      var resolved := created + d.resolveDays * MinutesPerDay + d.resolveHours * MinutesPerHour;
      Claim(Some(e.memberId), e.state, e.planId, e.productLine, day, created, false, reject, Some(Resolved), Some(resolved))
    else
      Claim(Some(e.memberId), e.state, e.planId, e.productLine, day, created, false, reject, Some(Open), None)
  }

  /** The set of member ids of the eligibility table. */
  function EligMembers(elig: seq<EligRecord>): (ms: set<nat>)
    ensures forall i :: 0 <= i < |elig| ==> elig[i].memberId in ms
    ensures forall m :: m in ms ==> exists i :: 0 <= i < |elig| && elig[i].memberId == m
  {
    set i | 0 <= i < |elig| :: elig[i].memberId
  }

  /** What the generator promises of every claim it writes, before the nulling pass. */
  predicate WellFormedClaim(c: Claim, start: int, end: int, members: set<nat>, bad: set<nat>) {
    && OutcomeConsistent(c)
    && start <= c.fillDate <= end
    && c.memberId.Some? && c.memberId.value in members
    && (c.reject.Some? && c.reject.value !in GenericRejects ==> c.memberId.value in bad)
  }

  /**
   Claim `c` is the one drawn on `day` by `d`: filled on that day at the
   drawn hour and minute, for the region, plan and product line of the
   drawn member's eligibility row, with the reject decision and reason the
   draw gives for that member's badness, and OPEN exactly when rejected and
   the 85% draw failed.  The member id itself is stated apart, since the
   final noise pass may null it.
   */
  predicate ClaimOfDraw(c: Claim, day: int, elig: seq<EligRecord>, bad: set<nat>, d: ClaimDraw)
    requires d.memberIdx < |elig| && ValidClaimDraw(d)
  {
    var e := elig[FirstEligRow(elig, d.memberIdx)];
    && c.fillDate == day
    && c.createdTs == StartOfDay(day) + d.hour * MinutesPerHour + d.minute
    && c.state == e.state && c.planId == e.planId && c.productLine == e.productLine
    && c.reject == RejectOf(elig[d.memberIdx].memberId in bad, d)
    && (c.resolution == Some(Open) <==> c.reject.Some? && !d.resolves)
    && (c.resolvedTs.Some? ==>
          c.resolvedTs.value == c.createdTs + d.resolveDays * MinutesPerDay + d.resolveHours * MinutesPerHour)
  }

  /** The claims of one day, one per draw, in draw order. */
  function DayClaims(day: int, elig: seq<EligRecord>, bad: set<nat>, draws: seq<ClaimDraw>): (cs: seq<Claim>)
    requires |elig| > 0
    requires forall i :: 0 <= i < |draws| ==> ValidClaimDraw(draws[i]) && draws[i].memberIdx < |elig|
    ensures |cs| == |draws|
    ensures forall i :: 0 <= i < |draws| ==>
      && WellFormedClaim(cs[i], day, day, EligMembers(elig), bad)
      && cs[i].memberId == Some(elig[draws[i].memberIdx].memberId)
      && ClaimOfDraw(cs[i], day, elig, bad, draws[i])
      && (elig[draws[i].memberIdx].memberId !in bad ==> (cs[i].reject.Some? <==> draws[i].baseReject))
  {
    seq(|draws|, i requires 0 <= i < |draws| =>
      var e := elig[FirstEligRow(elig, draws[i].memberIdx)];
      MakeClaim(day, e, e.memberId in bad, draws[i]))
  }

  /** How many claims the day draws ask for, all days together. */
  function TotalClaims(days: seq<seq<ClaimDraw>>): nat {
    if |days| == 0 then 0 else TotalClaims(days[..|days| - 1]) + |days[|days| - 1]|
  }

  /** The earlier days never hold more claims than the later prefix. */
  lemma {:induction false} TotalClaimsMonotone(days: seq<seq<ClaimDraw>>, a: nat, b: nat)
    requires a <= b <= |days|
    ensures TotalClaims(days[..a]) <= TotalClaims(days[..b])
    decreases b
  {
    if a < b {
      assert days[..b][..b - 1] == days[..b - 1];
      TotalClaimsMonotone(days, a, b - 1);
    }
  }

  /**
   Where the `i`-th claim of day `k` lands in the claims table: after every
   claim of the earlier days, and inside the table.
   */
  function ClaimIndex(days: seq<seq<ClaimDraw>>, k: nat, i: nat): (p: nat)
    requires k < |days| && i < |days[k]|
    ensures TotalClaims(days[..k]) <= p < TotalClaims(days[..k + 1]) <= TotalClaims(days)
  {
    assert days[..k + 1][..k] == days[..k];
    TotalClaimsMonotone(days, k + 1, |days|);
    assert days[..|days|] == days;
    TotalClaims(days[..k]) + i
  }

  /** The draws of the whole window: one list per day, each of 350 to 650 claims. */
  predicate ValidClaimDays(days: seq<seq<ClaimDraw>>, memberCount: nat) {
    && |days| == WindowDays + 1
    && (forall k :: 0 <= k < |days| ==> MinDailyClaims <= |days[k]| <= MaxDailyClaims)
    && (forall k, i :: 0 <= k < |days| && 0 <= i < |days[k]| ==>
          ValidClaimDraw(days[k][i]) && (memberCount > 0 ==> days[k][i].memberIdx < memberCount))
  }

  /**
   `claims` holds exactly the claims of the first `k` days: as many as
   those days draw, each well formed, and the `i`-th claim of day `k'`
   filled on day `today - 28 + k'` for the member and outcome its draw
   gives.
   */
  predicate ClaimsOfDays(claims: seq<Claim>, today: int, elig: seq<EligRecord>, bad: set<nat>,
                         days: seq<seq<ClaimDraw>>, k: nat)
    requires |elig| > 0 && ValidClaimDays(days, |elig|) && k <= |days|
  {
    && |claims| == TotalClaims(days[..k])
    && (forall j :: 0 <= j < |claims| ==>
          WellFormedClaim(claims[j], today - WindowDays, today, EligMembers(elig), bad))
    && (forall k', i :: 0 <= k' < k && 0 <= i < |days[k']| ==>
          && ClaimIndex(days, k', i) < |claims|
          && claims[ClaimIndex(days, k', i)].memberId == Some(elig[days[k'][i].memberIdx].memberId)
          && ClaimOfDraw(claims[ClaimIndex(days, k', i)], today - WindowDays + k', elig, bad, days[k'][i]))
  }

  /** Appending the claims of day `k` to those of the days before it gives those of the first `k + 1` days. */
  lemma ClaimsOfNextDay(claims: seq<Claim>, dayClaims: seq<Claim>, today: int, elig: seq<EligRecord>,
                        bad: set<nat>, days: seq<seq<ClaimDraw>>, k: nat)
    requires |elig| > 0 && ValidClaimDays(days, |elig|) && k < |days|
    requires ClaimsOfDays(claims, today, elig, bad, days, k)
    requires |dayClaims| == |days[k]|
    requires forall i :: 0 <= i < |dayClaims| ==>
      && WellFormedClaim(dayClaims[i], today - WindowDays + k, today - WindowDays + k, EligMembers(elig), bad)
      && dayClaims[i].memberId == Some(elig[days[k][i].memberIdx].memberId)
      && ClaimOfDraw(dayClaims[i], today - WindowDays + k, elig, bad, days[k][i])
    ensures ClaimsOfDays(claims + dayClaims, today, elig, bad, days, k + 1)
  {
    var next := claims + dayClaims;
    assert days[..k + 1][..k] == days[..k];
    forall j | 0 <= j < |next|
      ensures WellFormedClaim(next[j], today - WindowDays, today, EligMembers(elig), bad)
    {
      if j >= |claims| {
        assert next[j] == dayClaims[j - |claims|];
      }
    }
    forall k', i | 0 <= k' < k + 1 && 0 <= i < |days[k']|
      ensures ClaimIndex(days, k', i) < |next|
      ensures next[ClaimIndex(days, k', i)].memberId == Some(elig[days[k'][i].memberIdx].memberId)
      ensures ClaimOfDraw(next[ClaimIndex(days, k', i)], today - WindowDays + k', elig, bad, days[k'][i])
    {
      var p := ClaimIndex(days, k', i);
      if k' < k {
        assert next[p] == claims[p];
      } else {
        assert p == |claims| + i;
        assert next[p] == dayClaims[i];
      }
    }
  }

  /**
   The claims loop of `generate_rx_claims`, day by day over the window
   ending `today`.  It fails exactly when the eligibility table is empty:
   the generator's empty frame has no `member_id` column, so building the
   member list raises a `KeyError`.  Otherwise every claim is well
   formed, and the `i`-th claim of day `k` is filled on day
   `today - 28 + k` for the member and outcome its draw gives.
   */
  method GenerateClaims(today: int, elig: seq<EligRecord>, bad: set<nat>, days: seq<seq<ClaimDraw>>)
    returns (r: Result<seq<Claim>, GenError>)
    requires ValidClaimDays(days, |elig|)
    ensures r.Failure? <==> |elig| == 0
    ensures r.Failure? ==> r.error == NoMembers
    ensures r.Success? ==> |r.value| == TotalClaims(days)
    ensures r.Success? ==> forall j :: 0 <= j < |r.value| ==>
      WellFormedClaim(r.value[j], today - WindowDays, today, EligMembers(elig), bad)
    ensures r.Success? ==> forall k, i :: 0 <= k < |days| && 0 <= i < |days[k]| ==>
      && r.value[ClaimIndex(days, k, i)].memberId == Some(elig[days[k][i].memberIdx].memberId)
      && ClaimOfDraw(r.value[ClaimIndex(days, k, i)], today - WindowDays + k, elig, bad, days[k][i])
  {
    if |elig| == 0 {
      return Failure(NoMembers);
    }
    var window := DateRange(today - WindowDays, today);
    var claims: seq<Claim> := [];
    var k := 0;
    while k < |days|
      invariant 0 <= k <= |days|
      invariant ClaimsOfDays(claims, today, elig, bad, days, k)
    {
      var dayClaims := DayClaims(window[k], elig, bad, days[k]);
      ClaimsOfNextDay(claims, dayClaims, today, elig, bad, days, k);
      claims := claims + dayClaims;
      k := k + 1;
    }
    assert days[..|days|] == days;
    r := Success(claims);
  }

  function ClearClaimMember(c: Claim): Claim {
    c.(memberId := None)
  }

  /** The final noise pass: null the member id of each listed claim; nothing else changes. */
  function NullClaimMembers(claims: seq<Claim>, rows: seq<nat>): (r: seq<Claim>)
    requires InBounds(rows, |claims|)
    ensures |r| == |claims|
    ensures forall j :: 0 <= j < |claims| ==> r[j].memberId == (if j in rows then None else claims[j].memberId)
    ensures forall j :: 0 <= j < |claims| ==> r[j].(memberId := claims[j].memberId) == claims[j]
  {
    assert Idempotent(ClearClaimMember);
    MutateRows(claims, rows, ClearClaimMember)
  }

  /**
   `generate_rx_claims`: resolve the bad set from the PBM mirror, draw the
   claims, then null eight member ids.  `bad` is the resolved bad set
   (`pbm_bad`).  It fails exactly when there are no members.  On success
   every claim keeps the outcome invariant and its fill date in the window;
   its member id is missing exactly on the nulled rows and otherwise names
   an eligibility member; the `i`-th claim of day `k` keeps the day, the
   outcome and, unless nulled, the member its draw gives; and a
   PBM-specific reason ("26" or "R3") only goes to a member some latest PBM
   row of which is bad.
   */
  method GenerateRxClaims(today: int, elig: seq<EligRecord>, pbm: seq<PbmRecord>,
                          days: seq<seq<ClaimDraw>>, nullRows: seq<nat>)
    returns (r: Result<seq<Claim>, GenError>, bad: set<nat>)
    requires ValidClaimDays(days, |elig|)
    requires |nullRows| == NulledClaims && InBounds(nullRows, TotalClaims(days))
    ensures bad <= MembersOf(pbm)
    ensures forall m :: m in bad ==> exists j: nat :: IsLatestRowOf(pbm, m, j) && IsBad(pbm[j])
    ensures forall m :: m in MembersOf(pbm) && m !in bad ==> exists j: nat :: IsLatestRowOf(pbm, m, j) && !IsBad(pbm[j])
    ensures TiesAgree(pbm) ==> forall m: nat, j: nat :: IsLatestRowOf(pbm, m, j) ==> (m in bad <==> IsBad(pbm[j]))
    ensures r.Failure? <==> |elig| == 0
    ensures r.Failure? ==> r.error == NoMembers
    ensures r.Success? ==> |r.value| == TotalClaims(days)
    ensures r.Success? ==> forall j :: 0 <= j < |r.value| ==>
      && OutcomeConsistent(r.value[j])
      && today - WindowDays <= r.value[j].fillDate <= today
      && (r.value[j].memberId.None? <==> j in nullRows)
      && (r.value[j].memberId.Some? ==> r.value[j].memberId.value in EligMembers(elig))
    ensures r.Success? ==> forall j :: 0 <= j < |r.value| ==>
      (r.value[j].memberId.Some? && r.value[j].reject.Some? && r.value[j].reject.value !in GenericRejects ==>
         exists i: nat :: IsLatestRowOf(pbm, r.value[j].memberId.value, i) && IsBad(pbm[i]))
    ensures r.Success? ==> forall k, i :: 0 <= k < |days| && 0 <= i < |days[k]| ==>
      && r.value[ClaimIndex(days, k, i)].memberId ==
           (if ClaimIndex(days, k, i) in nullRows then None else Some(elig[days[k][i].memberIdx].memberId))
      && ClaimOfDraw(r.value[ClaimIndex(days, k, i)], today - WindowDays + k, elig, bad, days[k][i])
  {
    bad := ResolveBadSet(pbm);
    var claims := GenerateClaims(today, elig, bad, days);
    if claims.Failure? {
      return claims, bad;
    }
    var cs := claims.value;
    var nulled := NullClaimMembers(cs, nullRows);
    forall j | 0 <= j < |nulled| ensures OutcomeConsistent(nulled[j]) {
      assert WellFormedClaim(cs[j], today - WindowDays, today, EligMembers(elig), bad);
    }
    forall k, i | 0 <= k < |days| && 0 <= i < |days[k]|
      ensures ClaimOfDraw(nulled[ClaimIndex(days, k, i)], today - WindowDays + k, elig, bad, days[k][i])
    {
      var p := ClaimIndex(days, k, i);
      assert nulled[p].(memberId := cs[p].memberId) == cs[p];
    }
    r := Success(nulled);
  }
}

=== FILE: defect_injection.dfy ===
/**
 Defect injection into the PBM mirror: 10% of the rows are sampled without
 replacement and split into five groups, one per mismatch scenario; then
 member ids are nulled and end dates set to 1900-01-01 on a few random rows.
 */
module DefectInjection {
  import opened Wrappers
  import opened Calendar
  import opened Catalog
  import opened Rows
  import opened Sections
  import opened FileLoads
  import opened Eligibility
  import opened PbmMirror

  /** Share of mirror rows sampled for the scenarios: `int(n * 0.10)`. */
  const SampleDivisor: nat := 10
  const ScenarioCount: nat := 5
  const PrematureEndDays: int := 20
  const DelayMinutes: int := 6 * MinutesPerDay
  const DuplicateCap: nat := 300
  const DuplicateCreatedOffset: int := 10
  const DuplicateEndDays: int := 5
  const NoiseRows: nat := 10

  function Min(a: nat, b: nat): nat {
    if a <= b then a else b
  }

  /** Scenario 1 on one row: TERMINATED, ending 20 days after the effective date; nothing else changed. */
  predicate PrematurelyTerminated(before: PbmRecord, after: PbmRecord) {
    && after.status == Terminated
    && after.end == before.effective + PrematureEndDays
    && after.(status := before.status, end := before.end) == before
  }

  /** Scenario 2 on one row: the PBM plan id is the wrong-plan sentinel; nothing else changed. */
  predicate PlanCorrupted(before: PbmRecord, after: PbmRecord) {
    && after.pbmPlanId == WrongPbmPlan
    && after.(pbmPlanId := before.pbmPlanId) == before
  }

  /** Scenario 3 on one row: an ended row ends one day later; an open-ended row is untouched. */
  predicate EndDateDrifted(before: PbmRecord, after: PbmRecord) {
    if before.end == OpenEndDate then after == before
    else after.end == before.end + 1 && after.(end := before.end) == before
  }

  /** Scenario 4 on one row: load and creation both six days later; nothing else changed. */
  predicate LoadDelayed(before: PbmRecord, after: PbmRecord) {
    && after.loadTs == before.loadTs + DelayMinutes
    && after.createdTs == before.createdTs + DelayMinutes
    && after.(loadTs := before.loadTs, createdTs := before.createdTs) == before
  }

  function TerminateEarly(r: PbmRecord): PbmRecord {
    r.(status := Terminated, end := r.effective + PrematureEndDays)
  }

  function CorruptPlan(r: PbmRecord): PbmRecord {
    r.(pbmPlanId := WrongPbmPlan)
  }

  function DriftEnd(r: PbmRecord): PbmRecord {
    if r.end != OpenEndDate then r.(end := r.end + 1) else r
  }

  function DelayLoad(r: PbmRecord): PbmRecord {
    r.(loadTs := r.loadTs + DelayMinutes, createdTs := r.createdTs + DelayMinutes)
  }

  /** Scenario 1 applied to the rows of one group. */
  function PrematureTermination(t: seq<PbmRecord>, g: seq<nat>): (r: seq<PbmRecord>)
    requires InBounds(g, |t|) && Distinct(g)
    ensures |r| == |t|
    ensures forall j :: 0 <= j < |t| && j in g ==> PrematurelyTerminated(t[j], r[j])
    ensures forall j :: 0 <= j < |t| && j !in g ==> r[j] == t[j]
  {
    MutateRows(t, g, TerminateEarly)
  }

  /** Scenario 2 applied to the rows of one group. */
  function PlanMappingCorruption(t: seq<PbmRecord>, g: seq<nat>): (r: seq<PbmRecord>)
    requires InBounds(g, |t|) && Distinct(g)
    ensures |r| == |t|
    ensures forall j :: 0 <= j < |t| && j in g ==> PlanCorrupted(t[j], r[j])
    ensures forall j :: 0 <= j < |t| && j !in g ==> r[j] == t[j]
  {
    MutateRows(t, g, CorruptPlan)
  }

  /** Scenario 3 applied to the rows of one group. */
  function DateDrift(t: seq<PbmRecord>, g: seq<nat>): (r: seq<PbmRecord>)
    requires InBounds(g, |t|) && Distinct(g)
    ensures |r| == |t|
    ensures forall j :: 0 <= j < |t| && j in g ==> EndDateDrifted(t[j], r[j])
    ensures forall j :: 0 <= j < |t| && (j !in g || t[j].end == OpenEndDate) ==> r[j] == t[j]
  {
    MutateRows(t, g, DriftEnd)
  }

  /** Scenario 4 applied to the rows of one group. */
  function DelayedLoad(t: seq<PbmRecord>, g: seq<nat>): (r: seq<PbmRecord>)
    requires InBounds(g, |t|) && Distinct(g)
    ensures |r| == |t|
    ensures forall j :: 0 <= j < |t| && j in g ==> LoadDelayed(t[j], r[j])
    ensures forall j :: 0 <= j < |t| && j !in g ==> r[j] == t[j]
  {
    MutateRows(t, g, DelayLoad)
  }

  /** Position of the first row of member `m` at or after position `i`; `|t|` when there is none. */
  function FirstRowFrom(t: seq<PbmRecord>, m: nat, i: nat): (k: nat)
    requires i <= |t|
    ensures i <= k <= |t|
    ensures k < |t| ==> t[k].memberId == Some(m)
    decreases |t| - i
  {
    if i == |t| then |t|
    else if t[i].memberId == Some(m) then i
    else FirstRowFrom(t, m, i + 1)
  }

  /** No row of member `m` at or after `i` comes before the one `FirstRowFrom` finds. */
  lemma {:induction false} FirstRowFromIsFirst(t: seq<PbmRecord>, m: nat, i: nat, j: nat)
    requires i <= j < |t| && t[j].memberId == Some(m)
    ensures FirstRowFrom(t, m, i) <= j
    decreases |t| - i
  {
    if i < j && t[i].memberId != Some(m) {
      FirstRowFromIsFirst(t, m, i + 1, j);
    }
  }

  /** Appending rows never changes the row `FirstRowFrom` finds, once it finds one. */
  lemma {:induction false} FirstRowFromExtended(t: seq<PbmRecord>, u: seq<PbmRecord>, m: nat, i: nat)
    requires i <= |t| && FirstRowFrom(t, m, i) < |t|
    ensures FirstRowFrom(t + u, m, i) == FirstRowFrom(t, m, i)
    decreases |t| - i
  {
    assert (t + u)[i] == t[i];
    if t[i].memberId != Some(m) {
      FirstRowFromExtended(t, u, m, i + 1);
    }
  }

  /**
   Position of the first row of member `m`, as `pbm[pbm.member_id == m].iloc[0]`
   finds it; `|t|` when the member has no row.
   */
  function FirstRowOf(t: seq<PbmRecord>, m: nat): (k: nat)
    ensures k <= |t|
    ensures k < |t| ==> t[k].memberId == Some(m)
  {
    FirstRowFrom(t, m, 0)
  }

  /** Every row of member `m` is at or after its first row. */
  lemma FirstRowOfIsFirst(t: seq<PbmRecord>, m: nat, j: nat)
    requires j < |t| && t[j].memberId == Some(m)
    ensures FirstRowOf(t, m) <= j
  {
    FirstRowFromIsFirst(t, m, 0, j);
  }

  /** Appending rows never changes which row of a member comes first. */
  lemma FirstRowOfExtended(t: seq<PbmRecord>, u: seq<PbmRecord>, m: nat)
    requires FirstRowOf(t, m) < |t|
    ensures FirstRowOf(t + u, m) == FirstRowOf(t, m)
  {
    FirstRowFromExtended(t, u, m, 0);
  }

  /** In a table whose member ids are unique, a member's only row is its first. */
  lemma FirstRowOfUnique(t: seq<PbmRecord>, j: nat)
    requires UniqueMembers(t)
    requires j < |t| && t[j].memberId.Some?
    ensures FirstRowOf(t, t[j].memberId.value) == j
  {
    var m := t[j].memberId.value;
    FirstRowOfIsFirst(t, m, j);
  }

  /**
   Scenario 5 on one member: a new row copied from `base`, attributed to the
   `latest` batch, created ten minutes after it loaded, TERMINATED and
   ending five days after the effective date; every other field as in `base`.
   */
  predicate DuplicateOf(base: PbmRecord, latest: BatchLoad, dup: PbmRecord) {
    && dup.batchId == latest.batchId
    && dup.fileVersion == latest.fileVersion
    && dup.loadTs == latest.loadTs
    && dup.createdTs == latest.loadTs + DuplicateCreatedOffset
    && dup.status == Terminated
    && dup.end == base.effective + DuplicateEndDays
    && dup.(batchId := base.batchId, fileVersion := base.fileVersion, loadTs := base.loadTs,
            createdTs := base.createdTs, status := base.status, end := base.end) == base
  }

  /** `dup` is the scenario-5 duplicate of member `m`'s first row in `t`. */
  predicate DuplicateOfFirstRow(t: seq<PbmRecord>, m: nat, latest: BatchLoad, dup: PbmRecord) {
    FirstRowOf(t, m) < |t| && DuplicateOf(t[FirstRowOf(t, m)], latest, dup)
  }

  function DuplicateRow(base: PbmRecord, latest: BatchLoad): PbmRecord {
    base.(batchId := latest.batchId, fileVersion := latest.fileVersion, loadTs := latest.loadTs,
          createdTs := latest.loadTs + DuplicateCreatedOffset, status := Terminated,
          end := base.effective + DuplicateEndDays)
  }

  /** The duplicate of member `m`'s first row belongs to `m` and carries the batch's load time. */
  lemma DuplicateBelongsTo(t: seq<PbmRecord>, m: nat, latest: BatchLoad, dup: PbmRecord)
    requires DuplicateOfFirstRow(t, m, latest, dup)
    ensures dup.memberId == Some(m)
    ensures dup.loadTs == latest.loadTs
  {
  }

  lemma DuplicateRowIsDuplicate(base: PbmRecord, latest: BatchLoad)
    ensures DuplicateOf(base, latest, DuplicateRow(base, latest))
  {
  }

  /** In a table whose member ids are unique, the duplicate of a member's first row copies that member's one row. */
  lemma DuplicateCopiesOwnRow(t: seq<PbmRecord>, j: nat, latest: BatchLoad, dup: PbmRecord)
    requires UniqueMembers(t)
    requires j < |t| && t[j].memberId.Some?
    requires DuplicateOfFirstRow(t, t[j].memberId.value, latest, dup)
    ensures DuplicateOf(t[j], latest, dup)
  {
    FirstRowOfUnique(t, j);
  }

  /**
   For each listed position in turn, appends a duplicate of the first row,
   in the growing table, of the member at that position.  Existing rows are
   never changed.
   */
  function AppendDuplicates(t: seq<PbmRecord>, g: seq<nat>, latest: BatchLoad): (r: seq<PbmRecord>)
    requires InBounds(g, |t|)
    requires forall k :: 0 <= k < |g| ==> t[g[k]].memberId.Some?
    ensures |r| == |t| + |g|
    ensures r[..|t|] == t
    ensures forall k :: 0 <= k < |g| ==> DuplicateOfFirstRow(t, t[g[k]].memberId.value, latest, r[|t| + k])
    decreases |g|
  {
    if |g| == 0 then t
    else
      var n := |g| - 1;
      var r0 := AppendDuplicates(t, g[..n], latest);
      var m := t[g[n]].memberId.value;
      FirstRowOfIsFirst(t, m, g[n]);
      assert r0 == t + r0[|t|..];
      FirstRowOfExtended(t, r0[|t|..], m);
      var base := r0[FirstRowOf(r0, m)];
      assert base == t[FirstRowOf(t, m)];
      DuplicateRowIsDuplicate(base, latest);
      var r := r0 + [DuplicateRow(base, latest)];
      assert forall k :: 0 <= k < n ==> g[..n][k] == g[k] && r[|t| + k] == r0[|t| + k];
      r
  }

  /**
   Scenario 5: the members of group `g`, capped at the first 300 in group
   order, each get one appended duplicate attributed to the ledger's latest
   batch.  The table only grows, by exactly min(300, |g|) rows.
   */
  method DuplicateOverride(t: seq<PbmRecord>, g: seq<nat>, loads: seq<BatchLoad>) returns (r: seq<PbmRecord>)
    requires InBounds(g, |t|)
    requires forall k :: 0 <= k < |g| ==> t[g[k]].memberId.Some?
    requires |g| > 0 ==> |loads| > 0
    ensures |r| == |t| + Min(DuplicateCap, |g|)
    ensures r[..|t|] == t
    ensures forall k :: 0 <= k < Min(DuplicateCap, |g|) ==> r[|t| + k].memberId == t[g[k]].memberId
    ensures forall j :: |t| <= j < |r| ==> r[j].memberId.Some?
    ensures forall k :: 0 <= k < Min(DuplicateCap, |g|) ==>
      DuplicateOfFirstRow(t, t[g[k]].memberId.value, loads[LatestLoadIndex(loads)], r[|t| + k])
  {
    if |g| == 0 {
      return t;
    }
    var cap := Min(DuplicateCap, |g|);
    var latest := loads[LatestLoadIndex(loads)];
    assert forall k :: 0 <= k < cap ==> g[..cap][k] == g[k];
    r := AppendDuplicates(t, g[..cap], latest);
    forall k | 0 <= k < cap ensures r[|t| + k].memberId == t[g[k]].memberId {
      assert t[g[k]].memberId == Some(t[g[k]].memberId.value);
      DuplicateBelongsTo(t, t[g[k]].memberId.value, latest, r[|t| + k]);
    }
    forall j | |t| <= j < |r| ensures r[j].memberId.Some? {
      assert r[|t| + (j - |t|)].memberId == t[g[j - |t|]].memberId;
    }
  }

  /** The five scenario groups: `array_split(selection, 5)`. */
  function ScenarioGroups(selection: seq<nat>): (gs: seq<seq<nat>>)
    ensures |gs| == ScenarioCount
    ensures |gs[4]| == |selection| / ScenarioCount
  {
    ArraySplit(selection, ScenarioCount)
  }

  /**
   The groups, in order, concatenate to the selection; their sizes differ
   by at most one, the larger groups first.
   */
  lemma ScenarioGroupSizes(selection: seq<nat>)
    ensures Concat(ScenarioGroups(selection)) == selection
    ensures forall a, b :: 0 <= a < b < ScenarioCount ==>
      |ScenarioGroups(selection)[b]| <= |ScenarioGroups(selection)[a]| <= |ScenarioGroups(selection)[b]| + 1
  {
  }

  /** Each group is a sample without repeats of positions of a table with `n` rows, all from the selection. */
  lemma GroupWellFormed(selection: seq<nat>, n: nat, a: nat)
    requires InBounds(selection, n) && Distinct(selection)
    requires a < ScenarioCount
    ensures InBounds(ScenarioGroups(selection)[a], n) && Distinct(ScenarioGroups(selection)[a])
    ensures forall j :: j in ScenarioGroups(selection)[a] ==> j in selection
  {
    var g := ScenarioGroups(selection)[a];
    SectionDistinct(selection, ScenarioCount, a);
    forall k | 0 <= k < |g| ensures g[k] < n {
      assert g[k] in selection;
    }
  }

  /** A selected position lies in one of the groups. */
  lemma GroupOf(selection: seq<nat>, j: nat) returns (a: nat)
    requires j in selection
    ensures a < ScenarioCount && j in ScenarioGroups(selection)[a]
  {
    SectionsCover(selection, ScenarioCount, j);
    a :| 0 <= a < ScenarioCount && j in ScenarioGroups(selection)[a];
  }

  /** A position lies in at most one group. */
  lemma GroupsDisjoint(selection: seq<nat>, a: nat, b: nat, j: nat)
    requires Distinct(selection)
    requires a < ScenarioCount && b < ScenarioCount && a != b
    requires j in ScenarioGroups(selection)[a]
    ensures j !in ScenarioGroups(selection)[b]
  {
    if a < b {
      SectionsDisjoint(selection, ScenarioCount, a, b);
    } else {
      SectionsDisjoint(selection, ScenarioCount, b, a);
    }
  }

  /** The groups are position samples without repeats, for a table of `n` rows, sharing no position. */
  predicate GroupsPartition(gs: seq<seq<nat>>, n: nat) {
    && |gs| == ScenarioCount
    && (forall a :: 0 <= a < |gs| ==> InBounds(gs[a], n) && Distinct(gs[a]))
    && (forall a, b, j :: 0 <= a < |gs| && 0 <= b < |gs| && a != b && j in gs[a] ==> j !in gs[b])
  }

  lemma ScenarioGroupsPartition(selection: seq<nat>, n: nat)
    requires InBounds(selection, n) && Distinct(selection)
    ensures GroupsPartition(ScenarioGroups(selection), n)
  {
    var gs := ScenarioGroups(selection);
    forall a | 0 <= a < ScenarioCount ensures InBounds(gs[a], n) && Distinct(gs[a]) {
      GroupWellFormed(selection, n, a);
    }
    forall a, b, j | 0 <= a < ScenarioCount && 0 <= b < ScenarioCount && a != b && j in gs[a]
      ensures j !in gs[b]
    {
      GroupsDisjoint(selection, a, b, j);
    }
  }

  /** A position outside the selection is in no group. */
  lemma UnselectedOutsideGroups(selection: seq<nat>)
    ensures forall j :: j !in selection ==> OutsideMutatingGroups(ScenarioGroups(selection), j)
  {
    forall j | j !in selection ensures OutsideMutatingGroups(ScenarioGroups(selection), j) {
      SectionsCover(selection, ScenarioCount, j);
    }
  }

  /**
   Scenarios 1 to 4, each mutating in place the rows of its own group.  A
   row of one group is mutated by that group's scenario alone; all other
   rows keep their values.
   */
  method MutateGroups(t: seq<PbmRecord>, gs: seq<seq<nat>>) returns (r: seq<PbmRecord>)
    requires GroupsPartition(gs, |t|)
    ensures |r| == |t|
    ensures forall j :: 0 <= j < |t| ==> ScenarioApplied(gs, j, t[j], r[j])
    ensures forall j :: 0 <= j < |t| && OutsideMutatingGroups(gs, j) ==> r[j] == t[j]
    ensures forall j :: 0 <= j < |t| ==> r[j].memberId == t[j].memberId
  {
    var t1 := PrematureTermination(t, gs[0]);
    var t2 := PlanMappingCorruption(t1, gs[1]);
    var t3 := DateDrift(t2, gs[2]);
    r := DelayedLoad(t3, gs[3]);
    forall j | 0 <= j < |t| ensures ScenarioApplied(gs, j, t[j], r[j]) {
      if j in gs[0] {
        assert j !in gs[1] && j !in gs[2] && j !in gs[3];
      } else if j in gs[1] {
        assert j !in gs[2] && j !in gs[3];
      } else if j in gs[2] {
        assert j !in gs[3];
      }
    }
  }

  /** Position `j` is in none of the four groups that mutate rows in place. */
  predicate OutsideMutatingGroups(gs: seq<seq<nat>>, j: nat)
    requires |gs| == ScenarioCount
  {
    j !in gs[0] && j !in gs[1] && j !in gs[2] && j !in gs[3]
  }

  /**
   What scenarios 1 to 4 did to the row at position `j`: the mutation of
   the group it lies in, or nothing when it lies in none of them.
   */
  predicate ScenarioApplied(gs: seq<seq<nat>>, j: nat, before: PbmRecord, after: PbmRecord)
    requires |gs| == ScenarioCount
  {
    && (j in gs[0] ==> PrematurelyTerminated(before, after))
    && (j in gs[1] ==> PlanCorrupted(before, after))
    && (j in gs[2] ==> EndDateDrifted(before, after))
    && (j in gs[3] ==> LoadDelayed(before, after))
    && (OutsideMutatingGroups(gs, j) ==> after == before)
  }

  /**
   The end date scenarios 1 to 4 give row `j`: 20 days after it became
   effective in group 1, one day later when ended and in group 3, and the
   row's own end otherwise.
   */
  function ScenarioEnd(gs: seq<seq<nat>>, j: nat, before: PbmRecord): int
    requires |gs| == ScenarioCount
  {
    if j in gs[0] then before.effective + PrematureEndDays
    else if j in gs[2] && before.end != OpenEndDate then before.end + 1
    else before.end
  }

  /** A row that shows its group's mutation ends on the date `ScenarioEnd` gives. */
  lemma ScenarioAppliedEnd(gs: seq<seq<nat>>, j: nat, before: PbmRecord, after: PbmRecord)
    requires |gs| == ScenarioCount
    requires ScenarioApplied(gs, j, before, after)
    ensures after.end == ScenarioEnd(gs, j, before)
  {
    if j !in gs[0] && !(j in gs[2] && before.end != OpenEndDate) {
      if j in gs[1] {
        assert after.(pbmPlanId := before.pbmPlanId).end == before.end;
      } else if j in gs[3] {
        assert after.(loadTs := before.loadTs, createdTs := before.createdTs).end == before.end;
      }
    }
  }

  /**
   Row `after` is `before` with its group's mutation, up to the two fields
   the noise pass may overwrite: the member id and the end date.
   */
  predicate ScenarioKeptUnderNoise(gs: seq<seq<nat>>, j: nat, before: PbmRecord, after: PbmRecord)
    requires |gs| == ScenarioCount
  {
    ScenarioApplied(gs, j, before, after.(memberId := before.memberId, end := ScenarioEnd(gs, j, before)))
  }

  /**
   The fields scenario 5 stamps on every duplicate, whatever row it copies:
   the latest batch, created ten minutes after that batch loaded, TERMINATED.
   */
  predicate DuplicateStamp(latest: BatchLoad, dup: PbmRecord) {
    && dup.batchId == latest.batchId
    && dup.fileVersion == latest.fileVersion
    && dup.loadTs == latest.loadTs
    && dup.createdTs == latest.loadTs + DuplicateCreatedOffset
    && dup.status == Terminated
  }

  /**
   With unique member ids, each duplicate appended for scenario 5 copies the
   row of its own group position, which scenarios 1 to 4 left untouched.
   */
  lemma GroupDuplicatesCopyOwnRows(t: seq<PbmRecord>, t4: seq<PbmRecord>, gs: seq<seq<nat>>, latest: BatchLoad, dups: seq<PbmRecord>)
    requires GroupsPartition(gs, |t|)
    requires UniqueMembers(t)
    requires forall j :: 0 <= j < |t| ==> t[j].memberId.Some?
    requires |t4| == |t|
    requires forall j :: 0 <= j < |t| ==> t4[j].memberId == t[j].memberId
    requires forall j :: 0 <= j < |t| && OutsideMutatingGroups(gs, j) ==> t4[j] == t[j]
    requires |dups| <= |gs[4]|
    requires forall k :: 0 <= k < |dups| ==> DuplicateOfFirstRow(t4, t[gs[4][k]].memberId.value, latest, dups[k])
    ensures forall k :: 0 <= k < |dups| ==> DuplicateOf(t[gs[4][k]], latest, dups[k])
  {
    assert UniqueMembers(t4);
    forall k | 0 <= k < |dups| ensures DuplicateOf(t[gs[4][k]], latest, dups[k]) {
      var j := gs[4][k];
      assert j in gs[4];
      assert OutsideMutatingGroups(gs, j);
      DuplicateCopiesOwnRow(t4, j, latest, dups[k]);
    }
  }

  /**
   Scenario 5 on the table `t4` that scenarios 1 to 4 produced from `t`:
   the duplicates appended for the group's members, in group order.  With
   unique member ids, each copies the untouched row of its own position.
   */
  method AppendScenarioDuplicates(t: seq<PbmRecord>, t4: seq<PbmRecord>, gs: seq<seq<nat>>, loads: seq<BatchLoad>)
    returns (r: seq<PbmRecord>)
    requires GroupsPartition(gs, |t|)
    requires forall j :: 0 <= j < |t| ==> t[j].memberId.Some?
    requires |gs[4]| > 0 ==> |loads| > 0
    requires |t4| == |t|
    requires forall j :: 0 <= j < |t| ==> t4[j].memberId == t[j].memberId
    requires forall j :: 0 <= j < |t| && OutsideMutatingGroups(gs, j) ==> t4[j] == t[j]
    ensures |r| == |t| + Min(DuplicateCap, |gs[4]|)
    ensures r[..|t|] == t4
    ensures forall k :: 0 <= k < |r| - |t| ==> r[|t| + k].memberId == t[gs[4][k]].memberId
    ensures forall j :: |t| <= j < |r| ==> r[j].memberId.Some?
    ensures forall k :: 0 <= k < |r| - |t| ==>
      DuplicateOfFirstRow(t4, t[gs[4][k]].memberId.value, loads[LatestLoadIndex(loads)], r[|t| + k])
    ensures UniqueMembers(t) ==> forall k :: 0 <= k < |r| - |t| ==>
      DuplicateOf(t[gs[4][k]], loads[LatestLoadIndex(loads)], r[|t| + k])
  {
    var g := gs[4];
    assert forall k :: 0 <= k < |g| ==> t4[g[k]].memberId == t[g[k]].memberId;
    r := DuplicateOverride(t4, g, loads);
    if UniqueMembers(t) && |r| > |t| {
      GroupDuplicatesCopyOwnRows(t, t4, gs, loads[LatestLoadIndex(loads)], r[|t|..]);
    }
  }

  /**
   Step 2 of the mirror, given the five groups: scenarios 1 to 4 mutate
   their groups in place, then scenario 5 appends duplicates for the members
   of its group, copied from the mutated table.  Member ids are never
   changed, and every appended row has one.  With unique member ids each
   duplicate is a copy of the row at its own group position.
   */
  method InjectScenarios(t: seq<PbmRecord>, gs: seq<seq<nat>>, loads: seq<BatchLoad>) returns (r: seq<PbmRecord>)
    requires GroupsPartition(gs, |t|)
    requires forall j :: 0 <= j < |t| ==> t[j].memberId.Some?
    requires |gs[4]| > 0 ==> |loads| > 0
    ensures |r| == |t| + Min(DuplicateCap, |gs[4]|)
    ensures forall j :: 0 <= j < |t| ==> ScenarioApplied(gs, j, t[j], r[j])
    ensures forall j :: 0 <= j < |t| ==> r[j].memberId == t[j].memberId
    ensures forall k :: 0 <= k < |r| - |t| ==> r[|t| + k].memberId == t[gs[4][k]].memberId
    ensures forall j :: |t| <= j < |r| ==> r[j].memberId.Some?
    ensures forall k :: 0 <= k < |r| - |t| ==>
      DuplicateOfFirstRow(r[..|t|], t[gs[4][k]].memberId.value, loads[LatestLoadIndex(loads)], r[|t| + k])
    ensures UniqueMembers(t) ==> forall k :: 0 <= k < |r| - |t| ==>
      DuplicateOf(t[gs[4][k]], loads[LatestLoadIndex(loads)], r[|t| + k])
  {
    var t4 := MutateGroups(t, gs);
    r := AppendScenarioDuplicates(t, t4, gs, loads);
    forall j | 0 <= j < |t| ensures r[j] == t4[j] {
      assert r[..|t4|][j] == r[j];
    }
  }

  // Step 3: data-quality noise, on rows drawn with replacement.

  function ClearMember(r: PbmRecord): PbmRecord {
    r.(memberId := None)
  }

  function SetLegacyEnd(r: PbmRecord): PbmRecord {
    r.(end := LegacyBadDate)
  }

  /** Nulls the member id of every listed row; a row listed twice is nulled once. */
  function NullMemberIds(t: seq<PbmRecord>, rows: seq<nat>): (r: seq<PbmRecord>)
    requires InBounds(rows, |t|)
    ensures |r| == |t|
    ensures forall j :: 0 <= j < |t| && j in rows ==>
      r[j].memberId == None && r[j].(memberId := t[j].memberId) == t[j]
    ensures forall j :: 0 <= j < |t| && j !in rows ==> r[j] == t[j]
  {
    assert Idempotent(ClearMember);
    MutateRows(t, rows, ClearMember)
  }

  /** Sets the end date of every listed row to 1900-01-01. */
  function LegacyEndDates(t: seq<PbmRecord>, rows: seq<nat>): (r: seq<PbmRecord>)
    requires InBounds(rows, |t|)
    ensures |r| == |t|
    ensures forall j :: 0 <= j < |t| && j in rows ==>
      r[j].end == LegacyBadDate && r[j].(end := t[j].end) == t[j]
    ensures forall j :: 0 <= j < |t| && j !in rows ==> r[j] == t[j]
  {
    assert Idempotent(SetLegacyEnd);
    MutateRows(t, rows, SetLegacyEnd)
  }

  /**
   Step 3 as a whole: member ids nulled on the first list of rows, end
   dates set to 1900-01-01 on the second; every other field and row kept.
   */
  method AddNoise(t: seq<PbmRecord>, nullRows: seq<nat>, legacyEndRows: seq<nat>) returns (r: seq<PbmRecord>)
    requires InBounds(nullRows, |t|) && InBounds(legacyEndRows, |t|)
    ensures |r| == |t|
    ensures forall j :: 0 <= j < |t| ==> r[j].memberId == (if j in nullRows then None else t[j].memberId)
    ensures forall j :: 0 <= j < |t| && j in legacyEndRows ==> r[j].end == LegacyBadDate
    ensures forall j :: 0 <= j < |t| && j !in legacyEndRows ==> r[j].end == t[j].end
    ensures forall j :: 0 <= j < |t| ==> r[j].(memberId := t[j].memberId, end := t[j].end) == t[j]
    ensures forall j :: 0 <= j < |t| && j !in nullRows && j !in legacyEndRows ==> r[j] == t[j]
  {
    var t1 := NullMemberIds(t, nullRows);
    r := LegacyEndDates(t1, legacyEndRows);
    forall j | 0 <= j < |t| ensures r[j].(memberId := t[j].memberId, end := t[j].end) == t[j] {
      assert r[j].(end := t1[j].end) == t1[j];
      assert t1[j].(memberId := t[j].memberId) == t[j];
    }
  }

  // The whole PBM-loaded generator.

  /**
   All draws `generate_pbm_loaded` consumes: the mirror draws, the scenario
   sample (`np.random.choice(..., replace=False)`), and the two lists of ten
   noise rows.
   */
  datatype PbmDraws = PbmDraws(
    mirror: seq<MirrorDraw>,
    selection: seq<nat>,
    nullRows: seq<nat>,
    legacyEndRows: seq<nat>)

  /** How many rows scenario 5 appends to a mirror of `n` rows. */
  function DuplicateCount(n: nat): nat {
    Min(DuplicateCap, n / SampleDivisor / ScenarioCount)
  }

  /** Each draw in the range its sampler produces, for `n` members and a ledger of `loadCount` batches. */
  predicate ValidPbmDraws(d: PbmDraws, n: nat, loadCount: nat) {
    && |d.mirror| == n
    && (loadCount > 0 ==> ValidMirrorDraws(d.mirror, loadCount))
    && |d.selection| == n / SampleDivisor
    && Distinct(d.selection) && InBounds(d.selection, n)
    && |d.nullRows| == NoiseRows && |d.legacyEndRows| == NoiseRows
    && (n > 0 ==> InBounds(d.nullRows, n + DuplicateCount(n)) && InBounds(d.legacyEndRows, n + DuplicateCount(n)))
  }

  /**
   The appended rows of an injected mirror of `elig`, restated by member:
   each belongs to the member at its group position and duplicates that
   member's first row.
   */
  lemma AppendedRowsOfMembers(elig: seq<EligRecord>, t: seq<PbmRecord>, g: seq<nat>, latest: BatchLoad, r: seq<PbmRecord>)
    requires |t| == |elig| <= |r|
    requires forall j :: 0 <= j < |t| ==> t[j].memberId == Some(elig[j].memberId)
    requires InBounds(g, |elig|) && |r| - |t| <= |g|
    requires forall k :: 0 <= k < |r| - |t| ==> r[|t| + k].memberId == t[g[k]].memberId
    requires forall k :: 0 <= k < |r| - |t| ==>
      DuplicateOfFirstRow(r[..|t|], t[g[k]].memberId.value, latest, r[|t| + k])
    ensures forall k :: 0 <= k < |r| - |elig| ==>
      && g[k] < |elig|
      && r[|elig| + k].memberId == Some(elig[g[k]].memberId)
      && DuplicateOfFirstRow(r[..|elig|], elig[g[k]].memberId, latest, r[|elig| + k])
  {
    forall k | 0 <= k < |r| - |elig|
      ensures r[|elig| + k].memberId == Some(elig[g[k]].memberId)
      ensures DuplicateOfFirstRow(r[..|elig|], elig[g[k]].memberId, latest, r[|elig| + k])
    {
      assert g[k] < |t|;
      assert t[g[k]].memberId.value == elig[g[k]].memberId;
    }
  }

  /**
   Step 2 on a mirror `t` of `elig`, restated by member: the rows keep their
   members, show their groups' mutations, and the appended rows belong to the
   members at their group-5 positions and duplicate those members' first
   rows (with unique member ids, the mirror rows at those positions).
   */
  method InjectIntoMirror(elig: seq<EligRecord>, t: seq<PbmRecord>, gs: seq<seq<nat>>, loads: seq<BatchLoad>)
    returns (r: seq<PbmRecord>)
    requires GroupsPartition(gs, |elig|)
    requires |t| == |elig| && |loads| > 0
    requires forall j :: 0 <= j < |t| ==> t[j].memberId == Some(elig[j].memberId)
    ensures |r| == |elig| + Min(DuplicateCap, |gs[4]|)
    ensures forall j :: 0 <= j < |r| ==> r[j].memberId.Some?
    ensures forall j :: 0 <= j < |elig| ==> r[j].memberId == Some(elig[j].memberId)
    ensures forall j :: 0 <= j < |elig| ==> ScenarioApplied(gs, j, t[j], r[j])
    ensures forall k :: 0 <= k < |r| - |elig| ==>
      && gs[4][k] < |elig|
      && r[|elig| + k].memberId == Some(elig[gs[4][k]].memberId)
      && DuplicateOfFirstRow(r[..|elig|], elig[gs[4][k]].memberId, loads[LatestLoadIndex(loads)], r[|elig| + k])
    ensures UniqueMemberIds(elig) ==> forall k :: 0 <= k < |r| - |elig| ==>
      gs[4][k] < |elig| && DuplicateOf(t[gs[4][k]], loads[LatestLoadIndex(loads)], r[|elig| + k])
  {
    r := InjectScenarios(t, gs, loads);
    assert InBounds(gs[4], |elig|);
    AppendedRowsOfMembers(elig, t, gs[4], loads[LatestLoadIndex(loads)], r);
    if UniqueMemberIds(elig) {
      assert UniqueMembers(t);
    }
  }

  /**
   The rows appended after the `|elig|` mirror rows of `table`: each carries
   the latest batch's stamp and, unless nulled, the member at its position in
   the group-5 list `g`.
   */
  predicate DuplicatesStamped(elig: seq<EligRecord>, g: seq<nat>, latest: BatchLoad, nullRows: seq<nat>, table: seq<PbmRecord>)
    requires |elig| <= |table|
  {
    forall k :: 0 <= k < |table| - |elig| ==>
      && k < |g| && g[k] < |elig|
      && DuplicateStamp(latest, table[|elig| + k])
      && (|elig| + k !in nullRows ==> table[|elig| + k].memberId == Some(elig[g[k]].memberId))
  }

  /**
   Every appended row of `table` is a duplicate of the mirror row `t[g[k]]`
   of its group-5 member, up to the member id and end date the noise may
   overwrite; one that no noise touched is exactly that duplicate.
   */
  predicate DuplicatesCopyMirror(t: seq<PbmRecord>, g: seq<nat>, latest: BatchLoad, nullRows: seq<nat>, legacyEndRows: seq<nat>,
                                 table: seq<PbmRecord>)
    requires |t| <= |table|
  {
    forall k :: 0 <= k < |table| - |t| ==>
      && k < |g| && g[k] < |t|
      && DuplicateOf(t[g[k]], latest,
                     table[|t| + k].(memberId := t[g[k]].memberId, end := t[g[k]].effective + DuplicateEndDays))
      && (|t| + k !in nullRows && |t| + k !in legacyEndRows ==> DuplicateOf(t[g[k]], latest, table[|t| + k]))
  }

  /**
   The noise pass keeps the injected scenarios on every mirror row, up to the
   member id and end date it overwrites, and exactly on the rows it leaves
   alone.
   */
  lemma NoiseKeepsScenarios(elig: seq<EligRecord>, t: seq<PbmRecord>, gs: seq<seq<nat>>,
                            injected: seq<PbmRecord>, table: seq<PbmRecord>, nullRows: seq<nat>, legacyEndRows: seq<nat>)
    requires |gs| == ScenarioCount
    requires |t| == |elig| <= |injected| == |table|
    requires forall j :: 0 <= j < |table| ==>
      table[j].(memberId := injected[j].memberId, end := injected[j].end) == injected[j]
    requires forall j :: 0 <= j < |table| && j !in legacyEndRows ==> table[j].end == injected[j].end
    requires forall j :: 0 <= j < |table| && j !in nullRows && j !in legacyEndRows ==> table[j] == injected[j]
    requires forall j :: 0 <= j < |elig| ==> injected[j].memberId == t[j].memberId
    requires forall j :: 0 <= j < |elig| ==> ScenarioApplied(gs, j, t[j], injected[j])
    ensures forall j :: 0 <= j < |elig| && j !in nullRows && j !in legacyEndRows ==>
      ScenarioApplied(gs, j, t[j], table[j])
    ensures forall j :: 0 <= j < |elig| ==> ScenarioKeptUnderNoise(gs, j, t[j], table[j])
    ensures forall j :: 0 <= j < |elig| && j !in legacyEndRows ==> table[j].end == ScenarioEnd(gs, j, t[j])
  {
    forall j | 0 <= j < |elig|
      ensures ScenarioKeptUnderNoise(gs, j, t[j], table[j])
      ensures j !in legacyEndRows ==> table[j].end == ScenarioEnd(gs, j, t[j])
    {
      ScenarioAppliedEnd(gs, j, t[j], injected[j]);
      assert table[j].(memberId := t[j].memberId, end := ScenarioEnd(gs, j, t[j])) == injected[j];
    }
  }

  /** The noise pass keeps every appended row's latest-batch stamp and, unless nulled, its member. */
  lemma NoiseKeepsStamps(elig: seq<EligRecord>, g: seq<nat>, latest: BatchLoad,
                         injected: seq<PbmRecord>, table: seq<PbmRecord>, nullRows: seq<nat>)
    requires |elig| <= |injected| == |table| && |injected| - |elig| <= |g|
    requires forall j :: 0 <= j < |table| ==> table[j].memberId == (if j in nullRows then None else injected[j].memberId)
    requires forall j :: 0 <= j < |table| ==>
      table[j].(memberId := injected[j].memberId, end := injected[j].end) == injected[j]
    requires forall k :: 0 <= k < |injected| - |elig| ==>
      && g[k] < |elig|
      && injected[|elig| + k].memberId == Some(elig[g[k]].memberId)
      && DuplicateOfFirstRow(injected[..|elig|], elig[g[k]].memberId, latest, injected[|elig| + k])
    ensures DuplicatesStamped(elig, g, latest, nullRows, table)
  {
    var n := |elig|;
    forall j | n <= j < |table|
      ensures DuplicateStamp(latest, table[j])
    {
      var k := j - n;
      assert DuplicateOfFirstRow(injected[..n], elig[g[k]].memberId, latest, injected[n + k]);
      assert table[j].(memberId := injected[j].memberId, end := injected[j].end) == injected[j];
    }
  }

  /**
   With every appended row a duplicate of its member's mirror row, the noise
   pass keeps it one up to the member id and end date, and exactly on the
   rows it leaves alone.
   */
  lemma NoiseKeepsMirrorCopies(elig: seq<EligRecord>, t: seq<PbmRecord>, g: seq<nat>, latest: BatchLoad,
                               injected: seq<PbmRecord>, table: seq<PbmRecord>, nullRows: seq<nat>, legacyEndRows: seq<nat>)
    requires |t| == |elig| <= |injected| == |table| && |injected| - |t| <= |g|
    requires forall j :: 0 <= j < |table| ==>
      table[j].(memberId := injected[j].memberId, end := injected[j].end) == injected[j]
    requires forall j :: 0 <= j < |table| && j !in nullRows && j !in legacyEndRows ==> table[j] == injected[j]
    requires UniqueMemberIds(elig) ==> forall k :: 0 <= k < |injected| - |elig| ==>
      g[k] < |elig| && DuplicateOf(t[g[k]], latest, injected[|elig| + k])
    ensures UniqueMemberIds(elig) ==> DuplicatesCopyMirror(t, g, latest, nullRows, legacyEndRows, table)
  {
    if UniqueMemberIds(elig) {
      var n := |t|;
      forall k | 0 <= k < |table| - n
        ensures DuplicateOf(t[g[k]], latest, table[n + k].(memberId := t[g[k]].memberId, end := t[g[k]].effective + DuplicateEndDays))
      {
        assert table[n + k].(memberId := t[g[k]].memberId, end := t[g[k]].effective + DuplicateEndDays) == injected[n + k];
      }
    }
  }

  /**
   Steps 1 and 2: the mirror with the five scenarios injected, for the
   groups `array_split` makes of the sample.  Every row has a member, and
   the mirror rows keep their members' ids.  Each mirror row shows the
   mutation of its group, or is the plain mirror row when in none; the
   appended rows are, in group-5 order, duplicates of their members' first
   rows, and with unique member ids copies of the mirror rows at their
   group positions.  This states steps 1 and 2 on their own;
   `GeneratePbmLoaded` composes the same steps with the noise pass through
   `InjectedNoisyMirror`.
   */
  method InjectedMirror(elig: seq<EligRecord>, loads: seq<BatchLoad>, d: PbmDraws) returns (r: seq<PbmRecord>)
    requires ValidPbmDraws(d, |elig|, |loads|)
    requires |loads| > 0
    ensures |r| == |elig| + DuplicateCount(|elig|)
    ensures forall j :: 0 <= j < |r| ==> r[j].memberId.Some?
    ensures forall j :: 0 <= j < |elig| ==> r[j].memberId == Some(elig[j].memberId)
    ensures forall j :: 0 <= j < |elig| && j !in d.selection ==>
      MirrorsSource(r[j], elig[j]) && CarriedBy(r[j], loads[d.mirror[j].loadIdx])
    ensures forall j :: 0 <= j < |elig| ==>
      ScenarioApplied(ScenarioGroups(d.selection), j, Mirror(elig, loads, d.mirror)[j], r[j])
    ensures forall k :: 0 <= k < |r| - |elig| ==>
      && ScenarioGroups(d.selection)[4][k] < |elig|
      && r[|elig| + k].memberId == Some(elig[ScenarioGroups(d.selection)[4][k]].memberId)
      && DuplicateOfFirstRow(r[..|elig|], elig[ScenarioGroups(d.selection)[4][k]].memberId,
                             loads[LatestLoadIndex(loads)], r[|elig| + k])
    ensures UniqueMemberIds(elig) ==> forall k :: 0 <= k < |r| - |elig| ==>
      && ScenarioGroups(d.selection)[4][k] < |elig|
      && DuplicateOf(Mirror(elig, loads, d.mirror)[ScenarioGroups(d.selection)[4][k]],
                     loads[LatestLoadIndex(loads)], r[|elig| + k])
  {
    var gs := ScenarioGroups(d.selection);
    ScenarioGroupsPartition(d.selection, |elig|);
    UnselectedOutsideGroups(d.selection);
    r := InjectIntoMirror(elig, Mirror(elig, loads, d.mirror), gs, loads);
  }

  /**
   Steps 2 and 3 on a mirror `t` of `elig`: the scenarios injected for the
   groups `gs`, then the noise.  A member id is missing exactly on the nulled
   rows; a mirror row no noise touched shows its group's mutation; each
   appended row carries the latest batch's stamp and, unless nulled, its
   group-5 member.
   */
  method InjectAndAddNoise(elig: seq<EligRecord>, t: seq<PbmRecord>, gs: seq<seq<nat>>, loads: seq<BatchLoad>,
                           nullRows: seq<nat>, legacyEndRows: seq<nat>) returns (table: seq<PbmRecord>)
    requires GroupsPartition(gs, |elig|)
    requires |t| == |elig| && |loads| > 0
    requires forall j :: 0 <= j < |t| ==> t[j].memberId == Some(elig[j].memberId)
    requires InBounds(nullRows, |elig| + Min(DuplicateCap, |gs[4]|))
    requires InBounds(legacyEndRows, |elig| + Min(DuplicateCap, |gs[4]|))
    ensures |table| == |elig| + Min(DuplicateCap, |gs[4]|)
    ensures forall j :: 0 <= j < |table| ==> (table[j].memberId.None? <==> j in nullRows)
    ensures forall j :: 0 <= j < |elig| && j !in nullRows ==> table[j].memberId == Some(elig[j].memberId)
    ensures forall j :: 0 <= j < |table| && j in legacyEndRows ==> table[j].end == LegacyBadDate
    ensures forall j :: 0 <= j < |elig| && j !in nullRows && j !in legacyEndRows ==>
      ScenarioApplied(gs, j, t[j], table[j])
    ensures forall j :: 0 <= j < |elig| ==> ScenarioKeptUnderNoise(gs, j, t[j], table[j])
    ensures forall j :: 0 <= j < |elig| && j !in legacyEndRows ==> table[j].end == ScenarioEnd(gs, j, t[j])
    ensures DuplicatesStamped(elig, gs[4], loads[LatestLoadIndex(loads)], nullRows, table)
    ensures UniqueMemberIds(elig) ==>
      DuplicatesCopyMirror(t, gs[4], loads[LatestLoadIndex(loads)], nullRows, legacyEndRows, table)
  {
    var injected := InjectIntoMirror(elig, t, gs, loads);
    table := AddNoise(injected, nullRows, legacyEndRows);
    forall j | 0 <= j < |table| ensures table[j].memberId.None? <==> j in nullRows {
      assert injected[j].memberId.Some?;
    }
    NoiseKeepsScenarios(elig, t, gs, injected, table, nullRows, legacyEndRows);
    NoiseKeepsStamps(elig, gs[4], loads[LatestLoadIndex(loads)], injected, table, nullRows);
    NoiseKeepsMirrorCopies(elig, t, gs[4], loads[LatestLoadIndex(loads)], injected, table, nullRows, legacyEndRows);
  }

  /**
   The success path of `generate_pbm_loaded`, on a table `t` that mirrors the
   members row for row: scenarios injected for the groups of the sample,
   then the noise.
   */
  method InjectedNoisyMirror(elig: seq<EligRecord>, loads: seq<BatchLoad>, d: PbmDraws, t: seq<PbmRecord>)
    returns (table: seq<PbmRecord>)
    requires ValidPbmDraws(d, |elig|, |loads|)
    requires |elig| > 0 && |loads| > 0
    requires |t| == |elig|
    requires forall j :: 0 <= j < |t| ==>
      MirrorsSource(t[j], elig[j]) && CarriedBy(t[j], loads[d.mirror[j].loadIdx])
    ensures |table| == |elig| + DuplicateCount(|elig|)
    ensures forall j :: 0 <= j < |table| ==> (table[j].memberId.None? <==> j in d.nullRows)
    ensures forall j :: 0 <= j < |elig| && j !in d.nullRows ==> table[j].memberId == Some(elig[j].memberId)
    ensures forall j :: 0 <= j < |table| && j in d.legacyEndRows ==> table[j].end == LegacyBadDate
    ensures forall j :: 0 <= j < |elig| && j !in d.selection && j !in d.nullRows && j !in d.legacyEndRows ==>
      MirrorsSource(table[j], elig[j]) && CarriedBy(table[j], loads[d.mirror[j].loadIdx])
    ensures forall j :: 0 <= j < |elig| && j !in d.nullRows && j !in d.legacyEndRows ==>
      ScenarioApplied(ScenarioGroups(d.selection), j, t[j], table[j])
    ensures forall j :: 0 <= j < |elig| ==> ScenarioKeptUnderNoise(ScenarioGroups(d.selection), j, t[j], table[j])
    ensures forall j :: 0 <= j < |elig| && j !in d.legacyEndRows ==>
      table[j].end == ScenarioEnd(ScenarioGroups(d.selection), j, t[j])
    ensures DuplicatesStamped(elig, ScenarioGroups(d.selection)[4], loads[LatestLoadIndex(loads)], d.nullRows, table)
    ensures UniqueMemberIds(elig) ==>
      DuplicatesCopyMirror(t, ScenarioGroups(d.selection)[4], loads[LatestLoadIndex(loads)], d.nullRows, d.legacyEndRows, table)
  {
    var gs := ScenarioGroups(d.selection);
    ScenarioGroupsPartition(d.selection, |elig|);
    UnselectedOutsideGroups(d.selection);
    table := InjectAndAddNoise(elig, t, gs, loads, d.nullRows, d.legacyEndRows);
  }

  /**
   `generate_pbm_loaded`: mirror, inject the five scenarios, add the noise.
   It fails when there are no members (the empty mirror frame has no
   member_id column to select) or no batches to carry them.  On success the
   table holds the n mirror rows, in order, followed by the scenario-5
   duplicates.  A member id is missing exactly on the rows the noise nulled.
   A mirror row no noise touched shows its scenario's mutation, or is the
   plain mirror row when in no group.  Every duplicate carries the latest
   batch's stamp; unless nulled it belongs to its group-5 member, and with
   unique member ids an untouched one is a copy of its member's mirror row.
   */
  method GeneratePbmLoaded(elig: seq<EligRecord>, loads: seq<BatchLoad>, d: PbmDraws) returns (r: Result<seq<PbmRecord>, GenError>)
    requires ValidPbmDraws(d, |elig|, |loads|)
    ensures |elig| == 0 ==> r == Failure(NoMembers)
    ensures |elig| > 0 && |loads| == 0 ==> r == Failure(NoBatches)
    ensures |elig| > 0 && |loads| > 0 ==> r.Success?
    ensures r.Success? ==> |r.value| == |elig| + DuplicateCount(|elig|)
    ensures r.Success? ==> forall j :: 0 <= j < |r.value| ==> (r.value[j].memberId.None? <==> j in d.nullRows)
    ensures r.Success? ==> forall j :: 0 <= j < |elig| && j !in d.nullRows ==> r.value[j].memberId == Some(elig[j].memberId)
    ensures r.Success? ==> forall j :: 0 <= j < |r.value| && j in d.legacyEndRows ==> r.value[j].end == LegacyBadDate
    ensures r.Success? ==> forall j :: 0 <= j < |elig| && j !in d.selection && j !in d.nullRows && j !in d.legacyEndRows ==>
      MirrorsSource(r.value[j], elig[j]) && CarriedBy(r.value[j], loads[d.mirror[j].loadIdx])
    ensures r.Success? ==> forall j :: 0 <= j < |elig| && j !in d.nullRows && j !in d.legacyEndRows ==>
      ScenarioApplied(ScenarioGroups(d.selection), j, Mirror(elig, loads, d.mirror)[j], r.value[j])
    ensures r.Success? ==> forall j :: 0 <= j < |elig| ==>
      ScenarioKeptUnderNoise(ScenarioGroups(d.selection), j, Mirror(elig, loads, d.mirror)[j], r.value[j])
    ensures r.Success? ==> forall j :: 0 <= j < |elig| && j !in d.legacyEndRows ==>
      r.value[j].end == ScenarioEnd(ScenarioGroups(d.selection), j, Mirror(elig, loads, d.mirror)[j])
    ensures r.Success? ==>
      DuplicatesStamped(elig, ScenarioGroups(d.selection)[4], loads[LatestLoadIndex(loads)], d.nullRows, r.value)
    ensures r.Success? && UniqueMemberIds(elig) ==>
      DuplicatesCopyMirror(Mirror(elig, loads, d.mirror), ScenarioGroups(d.selection)[4], loads[LatestLoadIndex(loads)],
                           d.nullRows, d.legacyEndRows, r.value)
  {
    if |elig| == 0 {
      return Failure(NoMembers);
    }
    if |loads| == 0 {
      return Failure(NoBatches);
    }
    var table := InjectedNoisyMirror(elig, loads, d, Mirror(elig, loads, d.mirror));
    r := Success(table);
  }
}

=== FILE: eligibility.dfy ===
/**
 The system-of-record eligibility table: one row per member, with a region,
 a plan from that region, a product line, an effective date in a recent
 window, and either open-ended (ACTIVE) or short, ended (TERMINATED) coverage.
 */
module Eligibility {
  import opened Calendar
  import opened Catalog

  /** The date of birth is not modelled; see README. */
  datatype EligRecord = EligRecord(
    memberId: nat,
    state: string,
    planId: string,
    productLine: string,
    effective: int,
    end: int,
    status: Status,
    lastUpdateTs: int)

  /** Member `i` is `M<100000 + i>`; the number is kept. */
  const MemberIdBase: nat := 100000

  /**
   The draws one member consumes: the region, the index into that region's
   plan pool, the product line, the effective-date offset, whether the 72%
   ACTIVE draw passed, the coverage length of a terminated member, and the
   age of the last internal update in days and hours.
   */
  datatype EligDraw = EligDraw(
    stateIdx: nat,
    planIdx: nat,
    productIdx: nat,
    effectiveOffset: int,
    active: bool,
    coverageDays: int,
    updateDays: int,
    updateHours: int)

  /** Each draw lies in the range its `random.choice` / `random.randint` produces. */
  predicate ValidEligDraw(d: EligDraw) {
    && d.stateIdx < |States|
    && d.planIdx < |PlanPool(States[d.stateIdx])|
    && d.productIdx < |ProductLines|
    && 0 <= d.effectiveOffset <= 60
    && 10 <= d.coverageDays <= 70
    && 0 <= d.updateDays <= 25
    && 0 <= d.updateHours <= 23
  }

  /**
   A date the calendar can still extend by the longest coverage span
   without reaching 9999-12-31.  Past that date Python's dates overflow;
   a terminated coverage that ends exactly on it would look open-ended.
   */
  predicate SupportedToday(today: int) {
    today + 40 < OpenEndDate
  }

  /** The coverage invariant: ACTIVE exactly when the end date is the open-ended sentinel. */
  predicate CoverageConsistent(e: EligRecord) {
    e.status == Active <==> e.end == OpenEndDate
  }

  /** Row `i` of the table, built from its draws. */
  function MemberRow(today: int, now: int, i: nat, d: EligDraw): (e: EligRecord)
    requires SupportedToday(today)
    requires ValidEligDraw(d)
    ensures e.memberId == MemberIdBase + i
    ensures e.state in States && e.productLine in ProductLines
    ensures exists p :: p in Plans && p.planId == e.planId && StartsWith(p.planId, e.state)
    ensures today - 90 <= e.effective <= today - 30
    ensures CoverageConsistent(e)
    ensures e.status == Active <==> d.active
    ensures e.status == Terminated ==> 10 <= e.end - e.effective <= 70
    ensures now - 25 * MinutesPerDay - 23 * MinutesPerHour <= e.lastUpdateTs <= now
  {
    var state := States[d.stateIdx];
    EveryStateHasPlans(state);
    assert Candidates(state)[0] in Plans && StartsWith(Candidates(state)[0].planId, state);
    var plan := PickPlan(state, d.planIdx);
    var eff := today - 90 + d.effectiveOffset;
    var lastUpdate := now - d.updateDays * MinutesPerDay - d.updateHours * MinutesPerHour;
    if d.active then
      EligRecord(MemberIdBase + i, state, plan.planId, ProductLines[d.productIdx], eff, OpenEndDate, Active, lastUpdate)
    else
      EligRecord(MemberIdBase + i, state, plan.planId, ProductLines[d.productIdx], eff, eff + d.coverageDays, Terminated, lastUpdate)
  }

  /**
   The eligibility table for one member per draw, as of date `today` and
   timestamp `now`.
   */
  function GenerateEligibility(today: int, now: int, draws: seq<EligDraw>): (elig: seq<EligRecord>)
    requires SupportedToday(today)
    requires forall i :: 0 <= i < |draws| ==> ValidEligDraw(draws[i])
    ensures |elig| == |draws|
    ensures forall i :: 0 <= i < |elig| ==> elig[i].memberId == MemberIdBase + i
    ensures forall i :: 0 <= i < |elig| ==>
      && elig[i].state in States
      && elig[i].productLine in ProductLines
      && (exists p :: p in Plans && p.planId == elig[i].planId && StartsWith(p.planId, elig[i].state))
    ensures forall i :: 0 <= i < |elig| ==>
      && today - 90 <= elig[i].effective <= today - 30
      && CoverageConsistent(elig[i])
      && (elig[i].status == Active <==> draws[i].active)
      && (elig[i].status == Terminated ==> 10 <= elig[i].end - elig[i].effective <= 70)
      && now - 25 * MinutesPerDay - 23 * MinutesPerHour <= elig[i].lastUpdateTs <= now
  {
    seq(|draws|, i requires 0 <= i < |draws| => MemberRow(today, now, i, draws[i]))
  }

  /** No two rows of the table share a member id. */
  predicate UniqueMemberIds(elig: seq<EligRecord>) {
    forall i, j :: 0 <= i < j < |elig| ==> elig[i].memberId != elig[j].memberId
  }

  /** Sequential allocation gives every row its own member id. */
  lemma MemberIdsUnique(today: int, now: int, draws: seq<EligDraw>)
    requires SupportedToday(today)
    requires forall i :: 0 <= i < |draws| ==> ValidEligDraw(draws[i])
    ensures UniqueMemberIds(GenerateEligibility(today, now, draws))
  {
  }
}

=== FILE: file_loads.dfy ===
/**
 The batch-load ledger: one row per simulated ingestion of the PBM vendor's
 eligibility file, loaded every 36 hours from 02:00 twenty-eight days ago.
 */
module FileLoads {
  import opened Calendar

  /** `BATCH_<load date>_<index>`, kept as the pair it is rendered from. */
  datatype BatchId = BatchId(loadDate: int, index: nat)

  /** `v<major>.<minor>`. */
  datatype FileVersion = FileVersion(major: nat, minor: nat)

  datatype BatchLoad = BatchLoad(
    batchId: BatchId,
    fileVersion: FileVersion,
    loadTs: int,
    recordsInFile: int,
    sourceSystem: string)

  const SourceSystem: string := "PBM_VENDOR_X"

  /** Minutes between two consecutive batches: one and a half days. */
  const LoadCadence: int := 36 * MinutesPerHour

  const MinRecordsInFile: int := 1500
  const MaxRecordsInFile: int := 4000

  /** Batches per major file version. */
  const BatchesPerVersion: nat := 6

  /** 02:00 on the day twenty-eight days before `now`: when batch 0 loads. */
  function LedgerBase(now: int): (base: int)
    ensures DateOf(base) == DateOf(now) - 28
    ensures base % MinutesPerDay == 2 * MinutesPerHour
  {
    StartOfDay(DateOf(now) - 28) + 2 * MinutesPerHour
  }

  /** The version of batch `i`: the minor number counts batches within a major version. */
  function FileVersionOf(i: nat): (v: FileVersion)
    ensures v.major >= 1 && v.minor < BatchesPerVersion
    ensures BatchesPerVersion * (v.major - 1) + v.minor == i
  {
    FileVersion(1 + i / BatchesPerVersion, i % BatchesPerVersion)
  }

  /** Strict lexicographic order on versions. */
  predicate VersionBefore(a: FileVersion, b: FileVersion) {
    a.major < b.major || (a.major == b.major && a.minor < b.minor)
  }

  /** Distinct batches get distinct versions, and later batches get later versions. */
  lemma FileVersionsIncrease(i: nat, j: nat)
    requires i < j
    ensures VersionBefore(FileVersionOf(i), FileVersionOf(j))
  {
    var a, b := FileVersionOf(i), FileVersionOf(j);
    if a.major == b.major {
      assert a.minor < b.minor;
    }
  }

  /**
   The ledger of `|recordDraws|` batches; `recordDraws[i]` is the record count
   drawn uniformly from [1500, 4000] for batch `i`.
   */
  function GenerateFileLoads(now: int, recordDraws: seq<int>): (loads: seq<BatchLoad>)
    requires forall i :: 0 <= i < |recordDraws| ==> MinRecordsInFile <= recordDraws[i] <= MaxRecordsInFile
    ensures |loads| == |recordDraws|
    ensures forall i :: 0 <= i < |loads| ==>
      && loads[i].loadTs - LedgerBase(now) == LoadCadence * i
      && loads[i].batchId == BatchId(DateOf(loads[i].loadTs), i)
      && BatchesPerVersion * (loads[i].fileVersion.major - 1) + loads[i].fileVersion.minor == i
      && loads[i].fileVersion.minor < BatchesPerVersion
      && MinRecordsInFile <= loads[i].recordsInFile <= MaxRecordsInFile
      && loads[i].sourceSystem == SourceSystem
  {
    var base := LedgerBase(now);
    seq(|recordDraws|, i requires 0 <= i < |recordDraws| =>
      var loadTs := base + LoadCadence * i;
      BatchLoad(BatchId(DateOf(loadTs), i), FileVersionOf(i), loadTs, recordDraws[i], SourceSystem))
  }

  /** The ledger's load times strictly increase with the batch index. */
  lemma LoadTimesStrictlyIncrease(now: int, recordDraws: seq<int>, i: nat, j: nat)
    requires forall k :: 0 <= k < |recordDraws| ==> MinRecordsInFile <= recordDraws[k] <= MaxRecordsInFile
    requires i < j < |recordDraws|
    ensures GenerateFileLoads(now, recordDraws)[i].loadTs < GenerateFileLoads(now, recordDraws)[j].loadTs
    ensures VersionBefore(GenerateFileLoads(now, recordDraws)[i].fileVersion,
                          GenerateFileLoads(now, recordDraws)[j].fileVersion)
    ensures GenerateFileLoads(now, recordDraws)[i].batchId != GenerateFileLoads(now, recordDraws)[j].batchId
  {
    FileVersionsIncrease(i, j);
  }

  /**
   The index of a batch with the greatest load time (the later one on a
   tie): what sorting the ledger by load time and taking the tail yields.
   */
  function LatestLoadIndex(loads: seq<BatchLoad>): (k: nat)
    requires |loads| > 0
    ensures k < |loads|
    ensures forall j :: 0 <= j < |loads| ==> loads[j].loadTs <= loads[k].loadTs
  {
    if |loads| == 1 then 0
    else
      var k := LatestLoadIndex(loads[..|loads| - 1]);
      assert forall j :: 0 <= j < |loads| - 1 ==> loads[..|loads| - 1][j] == loads[j];
      if loads[|loads| - 1].loadTs >= loads[k].loadTs then |loads| - 1 else k
  }

  /** In a generated ledger the latest batch is the last one. */
  lemma LatestLoadIsLast(now: int, recordDraws: seq<int>)
    requires forall k :: 0 <= k < |recordDraws| ==> MinRecordsInFile <= recordDraws[k] <= MaxRecordsInFile
    requires |recordDraws| > 0
    ensures LatestLoadIndex(GenerateFileLoads(now, recordDraws)) == |recordDraws| - 1
  {
    var loads := GenerateFileLoads(now, recordDraws);
    var k := LatestLoadIndex(loads);
    if k < |recordDraws| - 1 {
      LoadTimesStrictlyIncrease(now, recordDraws, k, |recordDraws| - 1);
    }
  }
}

=== FILE: latest.dfy ===
/**
 Latest-record resolution over the PBM mirror: for every member, the row with
 the greatest creation timestamp (`sort_values(...).groupby(...).tail(1)`),
 rows without a member dropped; and the bad set of members whose latest row
 carries the wrong PBM plan or is TERMINATED.
 */
module LatestRecord {
  import opened Wrappers
  import opened Catalog
  import opened PbmMirror

  /** Member ids that occur in the table. */
  function MembersOf(t: seq<PbmRecord>): (ms: set<nat>)
    ensures forall m :: m in ms <==> exists j :: 0 <= j < |t| && t[j].memberId == Some(m)
  {
    set j | 0 <= j < |t| && t[j].memberId.Some? :: t[j].memberId.value
  }

  /** Row `j` belongs to member `m` and no row of `m` was created later. */
  predicate IsLatestRowOf(t: seq<PbmRecord>, m: nat, j: nat) {
    && j < |t|
    && t[j].memberId == Some(m)
    && forall i :: 0 <= i < |t| && t[i].memberId == Some(m) ==> t[i].createdTs <= t[j].createdTs
  }

  /** A latest row that flags its member: the wrong PBM plan, or TERMINATED coverage. */
  predicate IsBad(row: PbmRecord) {
    row.pbmPlanId == WrongPbmPlan || row.status == Terminated
  }

  /** `latest` maps every member of the table, and only those, to one of its latest rows. */
  predicate ResolvesLatest(t: seq<PbmRecord>, latest: map<nat, nat>) {
    && latest.Keys == MembersOf(t)
    && forall m :: m in latest ==> IsLatestRowOf(t, m, latest[m])
  }

  /**
   The latest row of every member.  Among rows created at the same greatest
   timestamp the later one in table order is kept; the source's sort does
   not promise which, so the contract only says "a latest row".
   */
  method ResolveLatest(t: seq<PbmRecord>) returns (latest: map<nat, nat>)
    ensures ResolvesLatest(t, latest)
  {
    latest := map[];
    var i := 0;
    while i < |t|
      invariant 0 <= i <= |t|
      invariant latest.Keys == MembersOf(t[..i])
      invariant forall m :: m in latest ==> IsLatestRowOf(t[..i], m, latest[m])
    {
      assert t[..i + 1] == t[..i] + [t[i]];
      var row := t[i];
      if row.memberId.Some? {
        var m := row.memberId.value;
        if m !in latest || t[latest[m]].createdTs <= row.createdTs {
          latest := latest[m := i];
        }
      }
      i := i + 1;
    }
    assert t[..|t|] == t;
  }

  /**
   The members whose chosen latest row is bad: only members of the table,
   each bad on some latest row of its own, and every member left out good
   on some latest row.
   */
  function BadSet(t: seq<PbmRecord>, latest: map<nat, nat>): (bad: set<nat>)
    requires ResolvesLatest(t, latest)
    ensures bad <= MembersOf(t)
    ensures forall m :: m in bad ==> exists j: nat :: IsLatestRowOf(t, m, j) && IsBad(t[j])
    ensures forall m :: m in MembersOf(t) && m !in bad ==> exists j: nat :: IsLatestRowOf(t, m, j) && !IsBad(t[j])
  {
    set m | m in latest && IsBad(t[latest[m]])
  }

  /** All latest rows of every member agree on badness: the table leaves no tie that matters. */
  ghost predicate TiesAgree(t: seq<PbmRecord>) {
    forall m: nat, i: nat, j: nat :: IsLatestRowOf(t, m, i) && IsLatestRowOf(t, m, j) ==> (IsBad(t[i]) <==> IsBad(t[j]))
  }

  /**
   The bad set depends on the tie-break only through ties: when all latest
   rows of each member agree on badness, any two resolutions yield the
   same bad set.
   */
  lemma BadSetIndependentOfTies(t: seq<PbmRecord>, latest1: map<nat, nat>, latest2: map<nat, nat>)
    requires ResolvesLatest(t, latest1) && ResolvesLatest(t, latest2)
    requires TiesAgree(t)
    ensures BadSet(t, latest1) == BadSet(t, latest2)
  {
    forall m | m in BadSet(t, latest1) ensures m in BadSet(t, latest2) {
      assert m in latest2;
      assert IsLatestRowOf(t, m, latest1[m]) && IsLatestRowOf(t, m, latest2[m]);
    }
    forall m | m in BadSet(t, latest2) ensures m in BadSet(t, latest1) {
      assert m in latest1;
      assert IsLatestRowOf(t, m, latest1[m]) && IsLatestRowOf(t, m, latest2[m]);
    }
  }

  /**
   `pbm_bad`: the members whose latest row is bad.  A member is bad only if
   some latest row of it is bad, and left out only if some latest row of it
   is good; when ties do not matter, it is bad exactly when its latest rows
   are.  Rows without a member never contribute.
   */
  method ResolveBadSet(t: seq<PbmRecord>) returns (bad: set<nat>)
    ensures bad <= MembersOf(t)
    ensures forall m :: m in bad ==> exists j: nat :: IsLatestRowOf(t, m, j) && IsBad(t[j])
    ensures forall m :: m in MembersOf(t) && m !in bad ==> exists j: nat :: IsLatestRowOf(t, m, j) && !IsBad(t[j])
    ensures TiesAgree(t) ==> forall m: nat, j: nat :: IsLatestRowOf(t, m, j) ==> (m in bad <==> IsBad(t[j]))
  {
    var latest := ResolveLatest(t);
    bad := BadSet(t, latest);
    forall m | m in MembersOf(t)
      ensures exists j: nat :: IsLatestRowOf(t, m, j) && (IsBad(t[j]) <==> m in bad)
    {
      assert IsLatestRowOf(t, m, latest[m]);
    }
    if TiesAgree(t) {
      forall m: nat, j: nat | IsLatestRowOf(t, m, j) ensures m in bad <==> IsBad(t[j]) {
        assert m in MembersOf(t);
        assert IsLatestRowOf(t, m, latest[m]);
      }
    }
  }

  /** A member without any row in the table is never bad, and neither is a missing member id. */
  lemma BadMembersHaveRows(t: seq<PbmRecord>, latest: map<nat, nat>, m: nat)
    requires ResolvesLatest(t, latest)
    requires m in BadSet(t, latest)
    ensures exists j :: 0 <= j < |t| && t[j].memberId == Some(m) && IsBad(t[j])
  {
    var j := latest[m];
    assert 0 <= j < |t| && t[j].memberId == Some(m) && IsBad(t[j]);
  }
}

=== FILE: pbm_mirror.dfy ===
/**
 The PBM-loaded eligibility mirror before any defect is injected: a 1:1 copy
 of the eligibility table, each row carried by a randomly chosen batch of the
 load ledger.
 */
module PbmMirror {
  import opened Wrappers
  import opened Calendar
  import opened Catalog
  import opened FileLoads
  import opened Eligibility

  datatype PbmRecord = PbmRecord(
    memberId: Option<nat>,
    state: string,
    pbmPlanId: string,
    planIdRef: string,
    productLine: string,
    effective: int,
    end: int,
    status: Status,
    batchId: BatchId,
    fileVersion: FileVersion,
    loadTs: int,
    createdTs: int)

  const MinCreatedOffset: int := 1
  const MaxCreatedOffset: int := 240

  /** The batch carrying a member's row, and the minutes after its load at which the row was created. */
  datatype MirrorDraw = MirrorDraw(loadIdx: nat, createdOffset: int)

  /** Every draw names a batch of the ledger and an offset in [1, 240]. */
  predicate ValidMirrorDraws(draws: seq<MirrorDraw>, loadCount: nat) {
    forall i :: 0 <= i < |draws| ==>
      draws[i].loadIdx < loadCount && MinCreatedOffset <= draws[i].createdOffset <= MaxCreatedOffset
  }

  /** A PBM row agrees with the eligibility row in every field the mirror copies. */
  predicate MirrorsSource(row: PbmRecord, e: EligRecord) {
    && row.memberId == Some(e.memberId)
    && row.state == e.state
    && row.pbmPlanId == PbmPlanOf(e.planId)
    && row.planIdRef == e.planId
    && row.productLine == e.productLine
    && row.effective == e.effective
    && row.end == e.end
    && row.status == e.status
  }

  /** A PBM row carries the given batch and was created 1 to 240 minutes after it loaded. */
  predicate CarriedBy(row: PbmRecord, load: BatchLoad) {
    && row.batchId == load.batchId
    && row.fileVersion == load.fileVersion
    && row.loadTs == load.loadTs
    && MinCreatedOffset <= row.createdTs - row.loadTs <= MaxCreatedOffset
  }

  function MirrorRow(e: EligRecord, load: BatchLoad, createdOffset: int): (row: PbmRecord)
    requires MinCreatedOffset <= createdOffset <= MaxCreatedOffset
    ensures MirrorsSource(row, e) && CarriedBy(row, load)
  {
    PbmRecord(Some(e.memberId), e.state, PbmPlanOf(e.planId), e.planId, e.productLine,
              e.effective, e.end, e.status,
              load.batchId, load.fileVersion, load.loadTs, load.loadTs + createdOffset)
  }

  /** One mirror row per eligibility row, in the same order. */
  function Mirror(elig: seq<EligRecord>, loads: seq<BatchLoad>, draws: seq<MirrorDraw>): (t: seq<PbmRecord>)
    requires |draws| == |elig|
    requires ValidMirrorDraws(draws, |loads|)
    ensures |t| == |elig|
    ensures forall i :: 0 <= i < |t| ==>
      MirrorsSource(t[i], elig[i]) && CarriedBy(t[i], loads[draws[i].loadIdx])
  {
    seq(|elig|, i requires 0 <= i < |elig| =>
      MirrorRow(elig[i], loads[draws[i].loadIdx], draws[i].createdOffset))
  }

  /** Rows with a member id carry distinct member ids. */
  predicate UniqueMembers(t: seq<PbmRecord>) {
    forall i, j :: 0 <= i < j < |t| && t[i].memberId.Some? ==> t[i].memberId != t[j].memberId
  }

  /**
   Mirroring a generated eligibility table: every row has a member, member
   ids stay unique, the PBM plan id is a real mapping (never PBM_UNKNOWN),
   and ACTIVE still goes with the open-ended end date.
   */
  lemma MirrorOfGenerated(today: int, now: int, eligDraws: seq<EligDraw>, loads: seq<BatchLoad>, draws: seq<MirrorDraw>)
    requires SupportedToday(today)
    requires forall i :: 0 <= i < |eligDraws| ==> ValidEligDraw(eligDraws[i])
    requires |draws| == |eligDraws|
    requires ValidMirrorDraws(draws, |loads|)
    ensures var t := Mirror(GenerateEligibility(today, now, eligDraws), loads, draws);
      && UniqueMembers(t)
      && (forall i :: 0 <= i < |t| ==> t[i].memberId.Some?)
      && (forall i :: 0 <= i < |t| ==> t[i].pbmPlanId != UnknownPbmPlan)
      && (forall i :: 0 <= i < |t| ==> (t[i].status == Active <==> t[i].end == OpenEndDate))
  {
    var elig := GenerateEligibility(today, now, eligDraws);
    var t := Mirror(elig, loads, draws);
    forall i | 0 <= i < |t| ensures t[i].pbmPlanId != UnknownPbmPlan {
      assert exists p :: p in Plans && p.planId == elig[i].planId;
    }
    forall i, j | 0 <= i < j < |t| && t[i].memberId.Some? ensures t[i].memberId != t[j].memberId {
      assert elig[i].memberId != elig[j].memberId;
    }
  }
}

=== FILE: rows.dfy ===
/**
 Tables as sequences of rows, and the one way the generators edit a table in
 place: apply a row mutation at each of a list of positions.
 */
module Rows {

  /** No element occurs twice. */
  predicate Distinct<T(==)>(s: seq<T>) {
    forall i, j :: 0 <= i < j < |s| ==> s[i] != s[j]
  }

  /** Every position names a row of a table with `n` rows. */
  predicate InBounds(idxs: seq<nat>, n: nat) {
    forall k :: 0 <= k < |idxs| ==> idxs[k] < n
  }

  /** Applying the mutation a second time changes nothing. */
  ghost predicate Idempotent<T(!new)>(f: T -> T) {
    forall x :: f(f(x)) == f(x)
  }

  /**
   `for i in idxs: t[i] = f(t[i])`.  When the positions are distinct (a sample
   without replacement) or the mutation is idempotent (it overwrites a field
   with a constant), each listed row ends up mutated exactly once and every
   other row is left as it was.
   */
  function MutateRows<T(!new)>(t: seq<T>, idxs: seq<nat>, f: T -> T): (r: seq<T>)
    requires InBounds(idxs, |t|)
    requires Distinct(idxs) || Idempotent(f)
    ensures |r| == |t|
    ensures forall j :: 0 <= j < |t| && j in idxs ==> r[j] == f(t[j])
    ensures forall j :: 0 <= j < |t| && j !in idxs ==> r[j] == t[j]
    decreases |idxs|
  {
    if |idxs| == 0 then t
    else
      var t' := t[idxs[0] := f(t[idxs[0]])];
      assert forall j :: j in idxs[1..] ==> j in idxs;
      assert forall j :: j in idxs && j != idxs[0] ==> j in idxs[1..];
      assert Distinct(idxs) ==> idxs[0] !in idxs[1..];
      MutateRows(t', idxs[1..], f)
  }
}

=== FILE: wrappers.dfy ===
/** Small failure-carrying datatypes used by the generators. */
module Wrappers {

  /** A value that may be absent: pandas' None / NaN in a nullable column. */
  datatype Option<+T> = None | Some(value: T)

  /** The outcome of a generator that can raise on degenerate input. */
  datatype Result<+R, +E> = Success(value: R) | Failure(error: E)

  /**
   Why a generator fails.  `NoMembers`: the eligibility table is empty, and
   the frame pandas builds from no rows has no `member_id` column, so
   selecting that column raises a `KeyError`.  `NoBatches`: the ledger is
   empty, and `DataFrame.sample(1)` on no rows raises.
   */
  datatype GenError = NoMembers | NoBatches
}
